=== FILE: README.md ===
# Mantle token refresh pipeline and dashboard rules, in Dafny

This project models the core of the RWA insight hub. The server keeps a cached list
of the top Mantle tokens. The browser dashboard filters and summarises that list.

- **Explorer** (`explorer.dfy`): the upstream block explorer, as a total function from
  query string to page-or-error. It also holds the cursor query string and the bounded
  walk over at most three pages (`CrawlFrom`, `Aggregate`).
- **TokenStore** (`token_store.dfy`): the `tokens` table as a map keyed by address.
  - The bulk upsert `bulkCreate(records, { updateOnDuplicate })` overwrites only the
    seven listed columns.
  - The class `TokenTable` holds the rows, the database dialect (an in-memory SQLite
    database for the TypeScript sources, PostgreSQL for the compiled build) and a
    schedule of failing round trips.
  - An empty batch is answered without a round trip, as Sequelize's `bulkCreate([])` is.
- **MantleService** (`mantle_service.dfy`): `fetchTopMantleTokens`, `saveTokens` and
  `getTokensFromDB`.
  - The TypeScript source's fetch throws on failure; the compiled copy returns `[]`.
    Both are imperative methods proved against the walk specification.
  - The database query is a scan loop followed by a sort and a limit.
- **MantleController** (`mantle_controller.dfy`): the compiled `getMantleTokens`. It
  answers from the table when it holds mantle rows. Otherwise it refreshes once and
  reads again; an error gives 400. `Refreshing` gives the round trips of a save
  followed by a read: whether the save applied, the first error, and the count after.
- **CronJobs** (`cron_jobs.dfy`): the `MantleCron` singleton with its nullable task, and
  the tick of both builds.
- **RealtimeData**, **MantleHook**, **IndexPage** (client):
  - the pool record, `getStatus`, `formatTimeAgo`;
  - the market-listing → pool mapping with its risk classes;
  - the page's `filteredPools`, `activeFiltersCount`, `calculateStats` and
    `transformMantleData`.
- **Text**, **ArrayOps**, **Wrappers**: ASCII case mapping, `includes`, decimal
  rendering, and JavaScript's `filter`, stable `sort` and `slice`.

Caps, prices and NAVs are already-parsed `real`s; a JSON `null` is `None`. The HTTP
requests are parameters: the `Upstream` function for the explorer, and the
`outage` schedule for the database. Each fetch returns a ghost log of the query
strings it requested.

## Model

| member | source | states |
|---|---|---|
| Explorer.CursorQueryRoundTrip | server/src/services/mantle.service.ts:20-21 | the query string built from a cursor carries exactly its `contract_address_hash` and `items_count`: parsing it gives the cursor back |
| Explorer.CursorQuery | server/src/services/mantle.service.ts:21 | the query string is `?contract_address_hash=`, the cursor's hash, `&items_count=` and a non-empty run of digits, in that order |
| Explorer.Aggregate | server/src/services/mantle.service.ts:10-12 | one refresh makes 1 to 3 requests and the first has the empty query string; if that request fails, nothing is collected and its message is the error |
| Explorer.CrawlFrom | server/src/services/mantle.service.ts:12-22 | a walk with budget `n` makes at most `n` requests |
| Explorer.CrawlEnds | server/src/services/mantle.service.ts:12-22 | a walk makes between 1 and `budget` requests and starts at its query. It stops after a failure, after a page without cursor, or at the budget. It reports an error exactly when the last request failed, with that request's message |
| Explorer.CrawlChain | server/src/services/mantle.service.ts:18-21 | every request after the first is the query string of the previous page's cursor |
| Explorer.CrawlItems | server/src/services/mantle.service.ts:16 | the collected items are the pages' items concatenated in request order |
| Explorer.CrawlShape | server/src/services/mantle.service.ts:10-22 | the conjunction of the three lemmas above for one walk |
| Explorer.AggregateShape | server/src/services/mantle.service.ts:10-22 | one refresh starts with the empty query string, makes 1 to 3 requests, forwards each cursor, stops at the first page without cursor, and concatenates items in page order |
| TokenStore.Merge | server/src/services/mantle.service.ts:61-71 | an existing row takes the seven `updateOnDuplicate` columns from the record and keeps its address, `decimals`, `type` and `network` |
| TokenStore.MergeAbsorbs | server/src/services/mantle.service.ts:61-71 | a second duplicate-key update overwrites everything the first one wrote; updating a record with itself changes nothing |
| TokenStore.UpsertOne | server/src/services/mantle.service.ts:61-71 | the record's address joins the table. A new address gets the record itself. An existing one becomes its merge with the record: the seven update columns from the record, and its own address, `decimals`, `type` and `network`. Other rows are unchanged |
| TokenStore.UpsertAll | server/src/services/mantle.service.ts:61-71 | the table's addresses after the upsert are the old ones plus the batch's |
| TokenStore.UpsertAllLast | server/src/services/mantle.service.ts:61-71 | for any batch, repeated addresses included, each address of the batch holds its old row (or its first record if it was new) with the seven update columns of its last record |
| TokenStore.UpsertAllFrame | server/src/services/mantle.service.ts:61-71 | after the upsert the table's addresses are the old ones plus the batch's; rows of other addresses are unchanged |
| TokenStore.UpsertAllEffect | server/dist/services/mantle.service.js:51-61 | with distinct addresses, each record's address holds the record itself if it was new, else the merge of the old row with the record |
| TokenStore.UpsertAllKeyed | server/dist/models/token.model.js:8-11 | the upsert keeps every row stored under its own primary key |
| TokenStore.UpsertAllIdempotent | server/src/services/mantle.service.ts:61-71 | upserting the same batch twice gives the same table as once, for every batch |
| TokenStore.TokenTable.constructor | server/dist/db/index.js:7 | a fresh database has an empty, keyed table, the given dialect and failure schedule, and no round trips yet |
| TokenStore.TokenTable.RoundTrip | server/dist/services/mantle.service.js:63-69 | a round trip counts one call and fails exactly as the schedule says for that call |
| TokenStore.TokenTable.BulkCreate | server/dist/services/mantle.service.js:51-61 | an empty batch succeeds with no round trip and no change. Otherwise one round trip: if it fails, the error is thrown and nothing changes. PostgreSQL refuses a batch that repeats an address, with its error, and changes nothing. Otherwise the table becomes the upsert of the batch |
| MantleService.TopTokens | server/src/services/mantle.service.ts:24-36 | only ERC-20 items with a rate and a cap are kept. The result is sorted by cap descending and holds min(100, qualifying) of them, a sub-multiset of the qualifying items. Every qualifying item left out has a cap no larger than any kept one |
| MantleService.FetchTopMantleTokens | server/src/services/mantle.service.ts:7-44 | the `for` loop requests exactly the walk's query strings. It fails exactly when a request failed, with that message and no partial list. Otherwise it returns the top tokens of the concatenated items |
| MantleService.FetchedOrEmpty | server/dist/services/mantle.service.js:24-35 | the compiled result holds only qualifying tokens, sorted by cap descending, at most 100 |
| MantleService.FetchTopMantleTokensCompiled | server/dist/services/mantle.service.js:9-36 | the `while`/`pageCount` loop requests exactly the walk's query strings. On any failure it returns `[]`, discarding pages already collected; otherwise the top tokens |
| MantleService.ToRecord | server/src/services/mantle.service.ts:47-59 | a token's record keeps its address and has network "mantle" |
| MantleService.Records | server/dist/services/mantle.service.js:38-50 | exactly one record per token, in order |
| MantleService.SaveTokens | server/src/services/mantle.service.ts:46-72 | no tokens: no round trip, success, no change. Otherwise one round trip; a failure leaves the table unchanged, as does a batch the dialect refuses. Otherwise the table is the upsert of the tokens' records |
| MantleService.SavedRows | server/src/services/mantle.service.ts:47-70 | after a save, every token's address has a row with the seven update columns from that token. A new row is the token's record, with network "mantle". An existing row keeps `decimals`, `type` and `network`. Rows of other addresses are unchanged |
| MantleService.ScanMantle | server/dist/services/mantle.service.js:64-65 | the `where: { network: "mantle" }` scan yields every mantle row of the table exactly once and nothing else |
| MantleService.TopOfScanDistinct | server/dist/services/mantle.service.js:64-68 | the top rows of a scan never repeat an address and all come from the scan |
| MantleService.TopOfScanOmitted | server/dist/services/mantle.service.js:66-67 | every mantle row left out of the top rows has a cap no larger than the last one returned |
| MantleService.TopMantleRows | server/src/services/mantle.service.ts:74-80 | the query answer is distinct mantle rows of the table, by cap descending, min(100, mantle rows) of them; every omitted mantle row has no larger cap |
| MantleService.GetTokensFromDB | server/dist/services/mantle.service.js:63-69 | one round trip. It fails as the database does; otherwise it returns an answer to the top-mantle-rows query |
| MantleService.EmptyAnswer | server/dist/controllers/mantle.controller.js:12 | the read is empty exactly when the table holds no mantle row |
| MantleController.Refreshing | server/dist/controllers/mantle.controller.js:14-15 | the save applies exactly when the batch is empty, or its round trip succeeds and the dialect accepts it. An empty batch costs only the read, and the read's error is the one reported. A refused save costs one round trip, reports its own error and skips the read. An applied non-empty save is followed by the read, two round trips in all |
| MantleController.SaveAndRead | server/dist/controllers/mantle.controller.js:14-15 | the table changes only by the upsert of the records, and only when the save applies; the round trips are as `Refreshing` counts them. An error is returned as thrown; otherwise the read answers the top-mantle-rows query on the new table |
| MantleController.RefreshAndAnswer | server/dist/controllers/mantle.controller.js:13-20 | the fetch makes exactly the walk's requests and returns the compiled fetch's list, which is then saved and read as `SaveAndRead` states. Any error becomes 400 with its message, otherwise 200 with the top mantle rows |
| MantleController.GetMantleTokens | server/dist/controllers/mantle.controller.js:9-22 | see below the table |
| CronJobs.ScheduledTask.constructor | server/src/utils/cronJobs.ts:10 | `cron.schedule` creates a running task with the given expression |
| CronJobs.ScheduledTask.Start | server/src/utils/cronJobs.ts:23 | the scheduled job runs |
| CronJobs.ScheduledTask.Stop | server/src/utils/cronJobs.ts:28 | the scheduled job no longer runs |
| CronJobs.MantleCron.constructor | server/dist/utils/cronJobs.js:10-12 | `task` starts as null |
| CronJobs.MantleCron.Start | server/src/utils/cronJobs.ts:8-25 | the first call creates a fresh running task on `*/20 * * * *`. A later call keeps the same task in the same state |
| CronJobs.MantleCron.Stop | server/src/utils/cronJobs.ts:27-29 | stops the scheduled job if there is one and never clears `task` |
| CronJobs.StopThenStart | server/dist/utils/cronJobs.js:33-36 | after start, stop, start, `task` is set but not running: a stopped job cannot be restarted through `start` |
| CronJobs.Tick | server/src/utils/cronJobs.ts:11-21 | a fetch failure is caught and reported, with no save and no round trip. Otherwise exactly the fetched list is saved, and a save failure is reported too. On success the count saved is the list's length |
| CronJobs.CompiledTick | server/dist/utils/cronJobs.js:17-28 | it always saves the compiled fetch's list. An unreachable explorer saves 0 tokens, makes no round trip and leaves the table unchanged, whatever the database's state |
| RealtimeData.ActiveCount | client/src/pages/Index.tsx:87 | the length of the filtered list of active pools is the number of active pools, counted one by one |
| RealtimeData.PoolStats | client/src/pages/Index.tsx:86-99 | the active count is the number of active pools, at most the number of pools. It equals that number iff every pool is active, and is 0 iff none is. The total NAV is the sum of the pools' NAVs. The mean change is the sum of changes over the count, and 0 for no pools, whose total is 0 too |
| RealtimeData.SumChangeBounds | client/src/pages/Index.tsx:90 | the sum of changes lies between `n·lo` and `n·hi` |
| RealtimeData.NavChangeWithin | client/src/pages/Index.tsx:89-91 | the mean change lies between the smallest and largest change |
| RealtimeData.GetStatus | client/src/lib/realtime-data.ts:39-43 | Healthy iff m < 60, Needs Review iff 60 ≤ m < 180, Stale Data iff m ≥ 180 |
| RealtimeData.StatusMonotone | client/src/lib/realtime-data.ts:40-42 | more minutes never give a fresher status |
| RealtimeData.LabelsDistinct | client/src/lib/realtime-data.ts:39-43 | the three labels are pairwise different |
| RealtimeData.FormatTimeAgo | client/src/lib/realtime-data.ts:46-52 | the label is "Just now" exactly below 1 minute; every other label ends in " ago". `TimeAgoReadsBack` and `TimeAgoUnique` fix each label letter for letter |
| RealtimeData.ReadLabel | client/src/lib/realtime-data.ts:48-51 | a rendered count followed by one of the four units reads back as that count in that unit |
| RealtimeData.TimeAgoReadsBack | client/src/lib/realtime-data.ts:46-52 | each label reads back as: "Just now" below 1 minute; the minutes below 60; the whole hours below 1440; else the whole days. 60 to 119 minutes is exactly "1 hr ago", the hour count is 2..23, and the day count is at least 1 |
| RealtimeData.ReadSpelled | client/src/lib/realtime-data.ts:47-51 | the reader accepts one spelling per elapsed time: the count as `${n}` writes it ("hr" for one hour, "hrs" for more), so any text it reads is that spelling letter for letter |
| RealtimeData.TimeAgoUnique | client/src/lib/realtime-data.ts:46-52 | a label is the only text that reads as its elapsed time: for 120 ≤ m < 1440 it is exactly the digits of m div 60 followed by " hrs ago", and likewise for the other branches |
| MantleHook.RiskLevel | client/src/hooks/useMantleToken.ts:59 | Low iff rank ≤ 100, Medium iff 100 < rank ≤ 500, High iff rank > 500 (a null rank compares as 0) |
| MantleHook.RiskMonotone | client/src/hooks/useMantleToken.ts:59 | a worse rank never gives a lower risk class |
| MantleHook.Change | client/src/hooks/useMantleToken.ts:47 | the change is 0 exactly for a `null` or zero change; any other change is kept as it is |
| MantleHook.PreviousPrice | client/src/hooks/useMantleToken.ts:47-52 | a zero change gives the current price. There is no finite price exactly for -100%. Otherwise applying the change to the result gives the current price back |
| MantleHook.ToPool | client/src/hooks/useMantleToken.ts:54-68 | id and name are copied and the tag is the upper-cased symbol. It is an active Crypto pool updated 0 minutes ago, with the rank's risk class. The NAV is the market cap, the change is `|| 0` of the 24h change, and the unit price and supply are copied. The previous NAV is the current price times the supply (`|| 0`) when there is no change. It is missing exactly for -100%. Otherwise applying the change to it gives the current price times the supply |
| MantleHook.ToPools | client/src/hooks/useMantleToken.ts:45 | exactly one pool per token, in order |
| MantleHook.FreshPool | client/src/hooks/useMantleToken.ts:57-64 | a mapped pool is Healthy and labelled "Just now", and its tag matches the symbol case-insensitively |
| MantleHook.HookStats | client/src/hooks/useMantleToken.ts:102-109 | the active count equals the number of tokens; no tokens give a mean change of 0 |
| IndexPage.ListOrderIsTotal | client/src/pages/Index.tsx:266-283 | the comparator (ascending for "asc", reversed otherwise) is a total preorder whenever `localeCompare` is |
| IndexPage.SearchStage | client/src/pages/Index.tsx:228-235 | a non-empty query keeps the pools whose lowercased name, id or tag includes the lowercased query; an empty one keeps all |
| IndexPage.AssetStage | client/src/pages/Index.tsx:238-240 | unless "all", keeps the pools whose lowercased asset type equals the filter |
| IndexPage.RiskStage | client/src/pages/Index.tsx:243-245 | unless "all", keeps the pools whose lowercased risk level equals the filter |
| IndexPage.StatusStage | client/src/pages/Index.tsx:248-250 | unless "all", keeps the pools whose lowercased status equals the filter |
| IndexPage.RecentStage | client/src/pages/Index.tsx:253-255 | with `showRecent`, keeps the pools updated less than 1440 minutes ago |
| IndexPage.MinStage | client/src/pages/Index.tsx:258-260 | a non-empty minimum keeps the pools with NAV at least the bound, and none if it is not a number |
| IndexPage.MaxStage | client/src/pages/Index.tsx:261-263 | a non-empty maximum keeps the pools with NAV at most the bound, and none if it is not a number |
| IndexPage.AllStages | client/src/pages/Index.tsx:224-263 | after the seven stages, each matching pool occurs as often as in `pools`, and other pools not at all |
| IndexPage.SortStage | client/src/pages/Index.tsx:266-285 | sorting the filtered pools keeps exactly the matching pools, with multiplicity, in the panel's order |
| IndexPage.FilteredPools | client/src/pages/Index.tsx:224-286 | the list holds each pool that passes every filter as often as `pools` does, and nothing else. It is ordered by the chosen key, ascending iff "asc". With no filter on, it is a permutation of `pools` |
| IndexPage.Badge | client/src/pages/Index.tsx:291-295 | a switched-on filter counts once, a switched-off one not at all |
| IndexPage.FiveBadges | client/src/pages/Index.tsx:290-296 | five filter kinds that differ add up to the number switched on |
| IndexPage.ActiveFiltersCount | client/src/pages/Index.tsx:289-297 | the count is the number of distinct active filter kinds (asset, risk, status, recent, NAV range), at most 5 |
| IndexPage.BadgeIgnoresSearchAndSort | client/src/pages/Index.tsx:289-297 | the search box and the sort settings do not change the active filters |
| IndexPage.NavRangeCountsOnce | client/src/pages/Index.tsx:295 | the two NAV bounds are one filter kind, active iff either bound is set |
| IndexPage.InactiveFiltersShowAll | client/src/pages/Index.tsx:49-59 | with no active filter and an empty search every pool matches; the initial panel has no active filter |
| IndexPage.PriceBefore | client/src/pages/Index.tsx:66 | no finite price exactly for -100%; otherwise applying the change gives the current price back |
| IndexPage.GuardIsRedundant | client/src/hooks/useMantleToken.ts:50-52 | the hook's zero-change guard gives the same price as the page's unguarded formula |
| IndexPage.TransformMantleData | client/src/pages/Index.tsx:62-83 | one pool per token, in order, with id, name, tag, NAV, change and previous price from the token. Every pool is an active "RWA" pool of "Medium" risk, updated 0 minutes ago, with no unit price or supply, so the active count equals the number of tokens |
| ArrayOps.Filter | server/src/services/mantle.service.ts:24-30 | the kept elements are those satisfying the predicate, with their multiplicity; the length is unchanged iff all satisfy it |
| ArrayOps.FilterAppend | server/src/services/mantle.service.ts:24-30 | filtering a concatenation is the concatenation of the filtered parts, in order |
| ArrayOps.Take | server/src/services/mantle.service.ts:36 | `slice(0, n)` is the prefix of length min(n, length) |
| ArrayOps.Insert | server/src/services/mantle.service.ts:31-35 | inserting adds exactly one occurrence of the element |
| ArrayOps.SortBy | server/src/services/mantle.service.ts:31-35 | sorting is a permutation |
| ArrayOps.SortBySorted | server/src/services/mantle.service.ts:31-35 | under a total preorder the sort's result is sorted |
| ArrayOps.InsertSorted | server/src/services/mantle.service.ts:31-35 | inserting into a sorted list keeps it sorted |
| ArrayOps.TakeOfSorted | server/src/services/mantle.service.ts:36 | a prefix of a sorted list is sorted, and nothing it drops comes before what it keeps |
| ArrayOps.TopN | server/src/services/mantle.service.ts:31-36 | sort then slice: sorted, min(n, length) elements from the input, nothing dropped before anything kept |
| Text.Lower | client/src/pages/Index.tsx:229 | `toLowerCase` keeps the length, turns each ASCII capital into its own small letter, and changes nothing else |
| Text.Upper | client/src/hooks/useMantleToken.ts:57 | `toUpperCase` keeps the length, turns each ASCII small letter into its own capital, and changes nothing else |
| Text.LowerOfUpper | client/src/hooks/useMantleToken.ts:57 | upper-casing is invisible to a lower-cased comparison and is idempotent |
| Text.Includes | client/src/pages/Index.tsx:231-233 | an empty query is included in every string; an included query is no longer than the string |
| Text.IncludesWhere | client/src/pages/Index.tsx:231-233 | `includes` holds exactly when the query occurs at some position of the string |
| Text.IncludesAt | client/src/pages/Index.tsx:231-233 | an occurrence of the query at any position makes `includes` hold |
| Text.DecimalString | client/src/lib/realtime-data.ts:48 | the rendering of a count is a non-empty string of digits with no leading zero (except "0" itself) |
| Text.CanonicalDigits | client/src/lib/realtime-data.ts:48-51 | a digit string without leading zero is the rendering of the number it denotes |
| Text.DecimalRoundTrip | client/src/lib/realtime-data.ts:48-51 | reading the rendered digits gives the number back |

`GetMantleTokens` states, with `n` the round-trip count on entry:

- A failing first read answers 400 with its message and fetches nothing.
- A table holding mantle rows answers 200 from the first read, with no fetch and no save.
- An empty table makes exactly the walk's requests, then saves and reads as `Refreshing` counts from round trip `n + 1`. It answers 200 exactly when no round trip fails and the batch is accepted, and the table changes only by that save.
- A 200 answer always carries a top-mantle-rows answer for the final table, and a 400 answer carries an error message.
- When nothing is fetched (an unreachable explorer, or no qualifying token), an empty table gets a second read and no save. It answers 200 with an empty list when that read succeeds, and 400 with its message when it fails.

## Left out

- HTTP and JSON decoding (`fetch`, `res.json()`) are the `Upstream` parameter. Its errors are messages; the `InsightHubException` wrapper is not modelled.
- `Number(...)`/`parseFloat` and floating point. Prices, caps and NAVs are exact reals; minute counts are whole numbers. A NAV bound is empty, a number, or not a number. A -100% change has no finite previous price: the model gives `None` where JavaScript gives a non-finite value (`Infinity`, or `NaN` for a zero price or, in the hook, a zero or absent supply).
- Sequelize is reduced to the operations used.
  - A failed statement is taken to leave the table unchanged.
  - SQLite is taken to apply a batch with a repeated address record by record. The seven update columns come from the address's last record. The other columns come from the existing row, or from its first record when the address was new.
  - Timestamps (`timestamps: true`) are not modelled.
- TokenStore.UpsertAllEffect: stated for batches with distinct addresses. With a repeated address, the seven update columns come from the last record for it, as `UpsertAllLast` states.
- MantleService.SavedRows: stated for batches with distinct addresses, for the same reason.
- The TypeScript sources' model (`server/src/models/token.model.ts:4-10`) declares no key on the address and no price, market cap, decimals or type columns. There, `updateOnDuplicate` would meet no conflict and every save would add rows. The model gives both builds the compiled table instead, keyed by address and with every column the service writes.
- MantleService.TopTokens: the equal-cap tie order is not stated. The insertion sort keeps upstream order on ties, but stability is not proved.
- RealtimeData.FormatTimeAgo: minutes are whole numbers. A fractional minute count, which JavaScript prints as a decimal ("2.5 min ago"), is not modelled. `getStatus`, the recent filter and the sort compare whole minutes too. Both producers of pools (`client/src/hooks/useMantleToken.ts:64`, `client/src/pages/Index.tsx:78`) set 0.
- IndexPage.FilteredPools: stability among equal keys is not proved.
- MantleService.TopMantleRows: the database's order among equal caps is unspecified, and so is the scan order of the model.
- MantleService.FetchTopMantleTokensCompiled: sortedness and the qualifying filter are stated through `FetchedOrEmpty`, which its result equals, not repeated in its own contract.
- `localeCompare` is an abstract total preorder `collate`. `toLowerCase`/`toUpperCase` map ASCII letters only.
- A `null` market-cap rank compares as 0, so it is classed "Low", as JavaScript's `null <= 100` does.
- `server/src/controllers/mantle.controller.ts` calls `mantleService.fetchMantleTokens` (line 8), which the service does not define. The cache-miss rule is taken from the compiled controller.
- The cron timer, overlapping ticks and the hook's `setInterval` polling are left out: a tick is a method call.
- Logging is left out: the tick's outcome carries the count or the message it would log.
- Response plumbing (`ApiResponse`, middlewares, routes), configuration, React state and rendering, `formatNav` and `formatLargeNumber` are left out.
- Randomness and clocks are left out: `generatePriceChange`, `generateChartData`, `calculate24hChange`, `Date.now`/`new Date()`.
- The commented-out code in `client/src/pages/Index.tsx` is not modelled.
- The table's key is the address alone (`server/dist/models/token.model.js:8-11`), not the address within a network.

=== FILE: array_ops.dfy ===
/** The JavaScript array operations the pipeline relies on: `filter`, the stable
    `sort` with a comparator (ECMAScript requires stability), and `slice(0, n)`.
    A comparator `cmp` is represented by `le(a, b)`, "cmp(a, b) <= 0", which says
    that `a` may stay in front of `b`. */
module ArrayOps {

  function Min(a: int, b: int): int {
    if a <= b then a else b
  }

  /** `s.filter(keep)`: the elements satisfying `keep`, in their original order. */
  function Filter<T(!new)>(s: seq<T>, keep: T -> bool): (r: seq<T>)
    ensures |r| <= |s|
    ensures forall x :: multiset(r)[x] == if keep(x) then multiset(s)[x] else 0
    ensures forall x :: x in r <==> x in s && keep(x)
    ensures |r| == |s| <==> forall x | x in s :: keep(x)
  {
    if s == [] then []
    else
      assert s == [s[0]] + s[1..];
      (if keep(s[0]) then [s[0]] else []) + Filter(s[1..], keep)
  }

  /** Filtering a concatenation filters each part and keeps their order. */
  lemma {:induction false} FilterAppend<T(!new)>(s1: seq<T>, s2: seq<T>, keep: T -> bool)
    ensures Filter(s1 + s2, keep) == Filter(s1, keep) + Filter(s2, keep)
  {
    if s1 == [] {
      assert s1 + s2 == s2;
    } else {
      var s := s1 + s2;
      var head := if keep(s1[0]) then [s1[0]] else [];
      assert s[0] == s1[0] && s[1..] == s1[1..] + s2;
      assert Filter(s, keep) == head + Filter(s1[1..] + s2, keep);
      assert Filter(s1, keep) == head + Filter(s1[1..], keep);
      FilterAppend(s1[1..], s2, keep);
      Associative(head, Filter(s1[1..], keep), Filter(s2, keep));
    }
  }

  /** Concatenation regrouped, stated apart from any `Filter` facts, which
      make the same step costly inside `FilterAppend`. */
  lemma Associative<T>(a: seq<T>, b: seq<T>, c: seq<T>)
    ensures a + (b + c) == (a + b) + c
  {
  }

  /** `s.slice(0, n)`. */
  function Take<T>(s: seq<T>, n: nat): (r: seq<T>)
    ensures |r| == Min(n, |s|)
    ensures r == s[..|r|]
  {
    if |s| <= n then s else s[..n]
  }

  ghost predicate Sorted<T>(s: seq<T>, le: (T, T) -> bool) {
    forall i, j :: 0 <= i < j < |s| ==> le(s[i], s[j])
  }

  /** A comparator that sorts consistently: every two values are comparable and
      the order is transitive. */
  ghost predicate TotalPreorder<T(!new)>(le: (T, T) -> bool) {
    && (forall a, b :: le(a, b) || le(b, a))
    && (forall a, b, c :: le(a, b) && le(b, c) ==> le(a, c))
  }

  /** Inserts `x` in front of the first element it may precede; ties keep `x`
      first, which is what makes the sort below stable. */
  function Insert<T>(x: T, s: seq<T>, le: (T, T) -> bool): (r: seq<T>)
    ensures multiset(r) == multiset(s) + multiset{x}
  {
    if s == [] then [x]
    else if le(x, s[0]) then [x] + s
    else
      assert s == [s[0]] + s[1..];
      [s[0]] + Insert(x, s[1..], le)
  }

  /** `s.sort(cmp)`, as a stable insertion sort. */
  function SortBy<T>(s: seq<T>, le: (T, T) -> bool): (r: seq<T>)
    ensures multiset(r) == multiset(s)
    ensures |r| == |s|
  {
    if s == [] then []
    else
      assert s == [s[0]] + s[1..];
      Insert(s[0], SortBy(s[1..], le), le)
  }

  lemma {:induction false} InsertSorted<T(!new)>(x: T, s: seq<T>, le: (T, T) -> bool)
    requires TotalPreorder(le)
    requires Sorted(s, le)
    ensures Sorted(Insert(x, s, le), le)
  {
    if s == [] {
    } else if le(x, s[0]) {
      var r := [x] + s;
      forall i, j | 0 <= i < j < |r| ensures le(r[i], r[j]) {
        if i > 0 {
        } else if j > 1 {
          assert le(s[0], s[j - 1]);
        }
      }
    } else {
      var t := Insert(x, s[1..], le);
      InsertSorted(x, s[1..], le);
      assert le(s[0], x);
      forall j | 0 <= j < |t| ensures le(s[0], t[j]) {
        assert t[j] in multiset(t);
        if t[j] != x {
          assert t[j] in s[1..];
          var k :| 0 <= k < |s[1..]| && s[1..][k] == t[j];
          assert s[k + 1] == t[j];
        }
      }
      var r := [s[0]] + t;
      forall i, j | 0 <= i < j < |r| ensures le(r[i], r[j]) {
        if i > 0 {
          assert r[i] == t[i - 1] && r[j] == t[j - 1];
        } else {
          assert r[j] == t[j - 1];
        }
      }
    }
  }

  lemma {:induction false} SortBySorted<T(!new)>(s: seq<T>, le: (T, T) -> bool)
    requires TotalPreorder(le)
    ensures Sorted(SortBy(s, le), le)
  {
    if s != [] {
      SortBySorted(s[1..], le);
      InsertSorted(s[0], SortBy(s[1..], le), le);
    }
  }

  /** Keeping the first `n` of a sorted sequence keeps the best ones: every
      element that was cut off may follow every element that was kept. */
  lemma TakeOfSorted<T(!new)>(t: seq<T>, n: nat, le: (T, T) -> bool)
    requires Sorted(t, le)
    ensures Sorted(Take(t, n), le)
    ensures multiset(Take(t, n)) <= multiset(t)
    ensures forall x, y :: x in multiset(t) - multiset(Take(t, n)) && y in Take(t, n) ==> le(y, x)
  {
    if |t| > n {
      assert t == t[..n] + t[n..];
      assert multiset(t) == multiset(t[..n]) + multiset(t[n..]);
      forall x, y | x in multiset(t) - multiset(t[..n]) && y in t[..n]
        ensures le(y, x)
      {
        assert x in t[n..];
        var j :| 0 <= j < |t[n..]| && t[n..][j] == x;
        var i :| 0 <= i < n && t[i] == y;
        assert t[n + j] == x;
      }
    }
  }

  /** Sort with `le`, then keep the first `n`: the top-`n` window. */
  function TopN<T(!new)>(s: seq<T>, le: (T, T) -> bool, n: nat): (r: seq<T>)
    requires TotalPreorder(le)
    ensures Sorted(r, le)
    ensures |r| == Min(n, |s|)
    ensures multiset(r) <= multiset(s)
    ensures forall x, y :: x in multiset(s) - multiset(r) && y in r ==> le(y, x)
  {
    var sorted := SortBy(s, le);
    SortBySorted(s, le);
    TakeOfSorted(sorted, n, le);
    Take(sorted, n)
  }

  /** A sequence in which nothing occurs twice has no repeated element. */
  lemma OnceEach<T>(s: seq<T>)
    requires forall x :: multiset(s)[x] <= 1
    ensures forall i, j :: 0 <= i < j < |s| ==> s[i] != s[j]
  {
    forall i, j | 0 <= i < j < |s| ensures s[i] != s[j] {
      assert s == s[..j] + s[j..];
      assert multiset(s) == multiset(s[..j]) + multiset(s[j..]);
      assert multiset(s)[s[j]] <= 1;
      assert s[j] in multiset(s[j..]);
      assert multiset(s[..j])[s[j]] == 0;
      assert s[i] in s[..j];
    }
  }
}

=== FILE: cron_jobs.dfy ===
/** The background refresh: a node-cron task firing every twenty minutes,
    whose tick fetches the top Mantle tokens and saves them. The timer itself
    is outside the model: a tick is a method anyone may call. */
module CronJobs {
  import opened Wrappers
  import opened Explorer
  import opened TokenStore
  import opened MantleService

  // every minute divisible by 20: minutes 0, 20 and 40 of every hour
  const Every20Minutes := "*/20 * * * *"

  /** A node-cron task: its schedule and whether it is running. */
  class ScheduledTask {
    const expression: string
    var running: bool

    /** `cron.schedule(expression, callback)`: the job starts at once. */
    constructor (expression: string)
      ensures this.expression == expression && running
    {
      this.expression := expression;
      running := true;
    }

    method Start()
      modifies this
      ensures running
    {
      running := true;
    }

    method Stop()
      modifies this
      ensures !running
    {
      running := false;
    }
  }

  /** The `MantleCron` singleton: at most one scheduled task. */
  class MantleCron {
    var task: ScheduledTask?

    constructor ()
      ensures task == null
    {
      task := null;
    }

    /** `start`: schedule a job on the first call; any later call returns
        at once, whether or not the job was stopped since. */
    method Start()
      modifies this
      ensures old(task) == null ==>
        task != null && fresh(task) && task.expression == Every20Minutes && task.running
      ensures old(task) != null ==> task == old(task) && task.running == old(task.running)
    {
      if task != null {
        return;
      }
      var scheduled := new ScheduledTask(Every20Minutes);
      scheduled.Start();
      task := scheduled;
    }

    /** `stop`: stop the job if there is one. */
    method Stop()
      modifies task
      ensures task == old(task)
      ensures task != null ==> !task.running
    {
      if task != null {
        task.Stop();
      }
    }
  }

  /** Once stopped, the job cannot be started again through `start`. */
  method StopThenStart() returns (cron: MantleCron)
    ensures cron.task != null && !cron.task.running
  {
    cron := new MantleCron();
    cron.Start();
    cron.Stop();
    cron.Start();
  }

  /** What a tick logs: the number of tokens saved, or the error message. */
  datatype TickOutcome = Saved(count: nat) | Failed(message: string)

  /** The tick of the TypeScript sources: the strict fetch, whose error skips
      the save; then the save, whose error is caught and logged as well. */
  method Tick(table: TokenTable, upstream: Upstream) returns (outcome: TickOutcome, ghost requests: seq<string>)
    requires table.Valid()
    modifies table
    ensures table.Valid()
    ensures requests == Aggregate(upstream).requests
    ensures Aggregate(upstream).error.Some? ==>
      && outcome == Failed(Aggregate(upstream).error.value)
      && table.rows == old(table.rows) && table.calls == old(table.calls)
    ensures Aggregate(upstream).error.None? ==>
      var tokens := TopTokens(Aggregate(upstream).items);
      var fault := table.Fault(old(table.calls));
      var saved := Applied(table.dialect, fault, Records(tokens));
      && table.calls == old(table.calls) + Trips(Records(tokens))
      && (saved ==> outcome == Saved(|tokens|) && table.rows == UpsertAll(old(table.rows), Records(tokens)))
      && (!saved && fault.Some? ==> outcome == Failed(fault.value) && table.rows == old(table.rows))
      && (!saved && fault.None? ==> outcome == Failed(RepeatedKey) && table.rows == old(table.rows))
  {
    var fetched;
    fetched, requests := FetchTopMantleTokens(upstream);
    if fetched.Failure? {
      return Failed(fetched.error), requests;
    }
    var tokens := fetched.value;
    var stored := SaveTokens(table, tokens);
    if stored.Failure? {
      return Failed(stored.error), requests;
    }
    outcome := Saved(|tokens|);
  }

  /** The tick of the compiled build: the fetch never fails, so an unreachable
      explorer leads to saving an empty batch, which reaches no database,
      succeeds and changes nothing. */
  method CompiledTick(table: TokenTable, upstream: Upstream) returns (outcome: TickOutcome, ghost requests: seq<string>)
    requires table.Valid()
    modifies table
    ensures table.Valid()
    ensures requests == Aggregate(upstream).requests
    ensures var tokens := FetchedOrEmpty(upstream);
      var fault := table.Fault(old(table.calls));
      var saved := Applied(table.dialect, fault, Records(tokens));
      && table.calls == old(table.calls) + Trips(Records(tokens))
      && (saved ==> outcome == Saved(|tokens|) && table.rows == UpsertAll(old(table.rows), Records(tokens)))
      && (!saved && fault.Some? ==> outcome == Failed(fault.value) && table.rows == old(table.rows))
      && (!saved && fault.None? ==> outcome == Failed(RepeatedKey) && table.rows == old(table.rows))
    ensures Aggregate(upstream).error.Some? ==>
      outcome == Saved(0) && table.rows == old(table.rows) && table.calls == old(table.calls)
  {
    var tokens;
    tokens, requests := FetchTopMantleTokensCompiled(upstream);
    assert tokens == FetchedOrEmpty(upstream);
    var stored := SaveTokens(table, tokens);
    if stored.Failure? {
      return Failed(stored.error), requests;
    }
    outcome := Saved(|tokens|);
  }
}

=== FILE: explorer.dfy ===
/** The upstream block explorer's token listing: raw token records, pages with
    an optional `next_page_params` cursor, the query string a cursor is sent
    back as, and the bounded walk over at most three pages that the service
    performs. The HTTP request and JSON decoding are abstracted into a total
    function from query string to page-or-error. */
module Explorer {
  import opened Wrappers
  import Text

  /** The two fields of `next_page_params` that the service forwards. */
  datatype Cursor = Cursor(contractAddressHash: string, itemsCount: nat)

  /** One raw token record as the explorer lists it; `None` stands for `null`.
      Numeric strings are taken as already converted by `Number(...)`. */
  datatype TokenItem = TokenItem(
    address: string,
    symbol: Option<string>,
    name: Option<string>,
    decimals: Option<int>,
    exchangeRate: Option<real>,
    circulatingMarketCap: Option<real>,
    totalSupply: Option<string>,
    holders: int,
    iconUrl: Option<string>,
    tokenType: string)

  datatype Page = Page(items: seq<TokenItem>, nextPageParams: Option<Cursor>)

  /** One `fetch` of `BASE_URL + query` followed by `res.json()`: either the
      decoded page or the message of the error that was thrown. */
  type Upstream = string -> Result<Page, string>

  /** The page cap of one refresh. */
  const MaxPages: nat := 3

  const HashKey := "?contract_address_hash="
  const CountKey := "&items_count="

  /** The query string built from the previous page's cursor. */
  function CursorQuery(c: Cursor): (q: string)
    ensures |q| > |HashKey| + |c.contractAddressHash| + |CountKey|
    ensures Text.StartsWith(q, HashKey)
    ensures q[|HashKey|..|HashKey| + |c.contractAddressHash|] == c.contractAddressHash
    ensures Text.StartsWith(q[|HashKey| + |c.contractAddressHash|..], CountKey)
    ensures Text.AllDigits(q[|HashKey| + |c.contractAddressHash| + |CountKey|..])
  {
    HashKey + c.contractAddressHash + CountKey + Text.DecimalString(c.itemsCount)
  }

  /** How the explorer reads a cursor back out of a query string. */
  function ParseCursorQuery(q: string): Option<Cursor> {
    if !Text.StartsWith(q, HashKey) then None
    else
      var rest := q[|HashKey|..];
      var k := Text.IndexOf(rest, '&');
      var tail := rest[k..];
      if Text.StartsWith(tail, CountKey) && Text.AllDigits(tail[|CountKey|..]) && |tail| > |CountKey|
      then Some(Cursor(rest[..k], Text.DigitsValue(tail[|CountKey|..])))
      else None
  }

  /** The query string carries exactly the cursor's `contract_address_hash` and
      `items_count`: they can be read back unchanged (hashes are hexadecimal,
      so they never contain the separator `&`). */
  lemma CursorQueryRoundTrip(c: Cursor)
    requires '&' !in c.contractAddressHash
    ensures ParseCursorQuery(CursorQuery(c)) == Some(c)
  {
    var q := CursorQuery(c);
    var h := c.contractAddressHash;
    var d := Text.DecimalString(c.itemsCount);
    var rest := q[|HashKey|..];
    assert q == HashKey + (h + CountKey + d);
    assert rest == h + CountKey + d;
    var k := Text.IndexOf(rest, '&');
    assert rest[|h|] == '&';
    assert forall i | 0 <= i < |h| :: rest[i] == h[i];
    assert k == |h|;
    assert rest[..k] == h;
    assert rest[k..] == CountKey + d;
    assert rest[k..][|CountKey|..] == d;
    Text.DecimalRoundTrip(c.itemsCount);
  }

  /** What one aggregation did: the query strings requested, in order, the
      items of the pages received, and the error that ended it, if any. */
  datatype Crawl = Crawl(requests: seq<string>, items: seq<TokenItem>, error: Option<string>)

  /** Request `query`, then keep following cursors while pages remain in the
      budget. */
  function CrawlFrom(upstream: Upstream, query: string, budget: nat): (c: Crawl)
    ensures |c.requests| <= budget
    decreases budget
  {
    if budget == 0 then Crawl([], [], None)
    else
      match upstream(query)
      case Failure(e) => Crawl([query], [], Some(e))
      case Success(page) =>
        match page.nextPageParams
        case None => Crawl([query], page.items, None)
        case Some(cursor) =>
          var rest := CrawlFrom(upstream, CursorQuery(cursor), budget - 1);
          Crawl([query] + rest.requests, page.items + rest.items, rest.error)
  }

  /** The aggregation of one refresh: start with no query string, three pages at most. */
  function Aggregate(upstream: Upstream): (c: Crawl)
    ensures 1 <= |c.requests| <= MaxPages && c.requests[0] == ""
    ensures upstream("").Failure? ==> c == Crawl([""], [], Some(upstream("").error))
  {
    CrawlFrom(upstream, "", MaxPages)
  }

  /** `q2` is the request that follows `q1`: the page answering `q1` had a
      cursor and `q2` is that cursor's query string. */
  predicate Forwards(upstream: Upstream, q1: string, q2: string) {
    && upstream(q1).Success?
    && upstream(q1).value.nextPageParams.Some?
    && q2 == CursorQuery(upstream(q1).value.nextPageParams.value)
  }

  /** The page's items in request order (a failed request contributes none). */
  function ItemsOf(upstream: Upstream, queries: seq<string>): seq<TokenItem> {
    if queries == [] then []
    else
      (match upstream(queries[0]) case Success(p) => p.items case Failure(_) => [])
      + ItemsOf(upstream, queries[1..])
  }

  /** The shape of a walk: it starts at `query`, makes between one and `budget`
      requests, each later request forwards the previous page's cursor, it
      stops right after a failure or a page without cursor (or at the budget),
      only the last request can have failed, and the items are the pages'
      items concatenated in request order. */
  lemma {:induction false} CrawlShape(upstream: Upstream, query: string, budget: nat)
    requires budget > 0
    ensures var c := CrawlFrom(upstream, query, budget);
      && 1 <= |c.requests| <= budget
      && c.requests[0] == query
      && (forall i :: 0 <= i < |c.requests| - 1 ==> Forwards(upstream, c.requests[i], c.requests[i + 1]))
      && var last := c.requests[|c.requests| - 1];
      && (upstream(last).Failure? || upstream(last).value.nextPageParams.None? || |c.requests| == budget)
      && (c.error.Some? <==> upstream(last).Failure?)
      && (c.error.Some? ==> c.error.value == upstream(last).error)
      && c.items == ItemsOf(upstream, c.requests)
  {
    CrawlEnds(upstream, query, budget);
    CrawlChain(upstream, query, budget);
    CrawlItems(upstream, query, budget);
  }

  /** Where a walk starts and how it ends. */
  lemma {:induction false} CrawlEnds(upstream: Upstream, query: string, budget: nat)
    requires budget > 0
    ensures var c := CrawlFrom(upstream, query, budget);
      && 1 <= |c.requests| <= budget
      && c.requests[0] == query
      && var last := c.requests[|c.requests| - 1];
      && (upstream(last).Failure? || upstream(last).value.nextPageParams.None? || |c.requests| == budget)
      && (c.error.Some? <==> upstream(last).Failure?)
      && (c.error.Some? ==> c.error.value == upstream(last).error)
    decreases budget
  {
    match upstream(query)
    case Failure(e) =>
    case Success(page) =>
      match page.nextPageParams
      case None =>
      case Some(cursor) =>
        if budget > 1 {
          var c := CrawlFrom(upstream, query, budget);
          var rest := CrawlFrom(upstream, CursorQuery(cursor), budget - 1);
          CrawlEnds(upstream, CursorQuery(cursor), budget - 1);
          assert c.requests == [query] + rest.requests;
          assert c.requests[|c.requests| - 1] == rest.requests[|rest.requests| - 1];
        }
  }

  /** Each request of a walk after the first follows the cursor of the page
      before it. */
  lemma {:induction false} CrawlChain(upstream: Upstream, query: string, budget: nat)
    ensures var c := CrawlFrom(upstream, query, budget);
      && (c.requests != [] ==> c.requests[0] == query)
      && forall i :: 0 <= i < |c.requests| - 1 ==> Forwards(upstream, c.requests[i], c.requests[i + 1])
    decreases budget
  {
    if budget > 0 && upstream(query).Success? && upstream(query).value.nextPageParams.Some? {
      var c := CrawlFrom(upstream, query, budget);
      var next := CursorQuery(upstream(query).value.nextPageParams.value);
      var rest := CrawlFrom(upstream, next, budget - 1);
      CrawlChain(upstream, next, budget - 1);
      assert c.requests == [query] + rest.requests;
      forall i | 0 <= i < |c.requests| - 1
        ensures Forwards(upstream, c.requests[i], c.requests[i + 1])
      {
        if i > 0 {
          assert c.requests[i] == rest.requests[i - 1];
          assert c.requests[i + 1] == rest.requests[i];
        } else {
          assert c.requests[1] == rest.requests[0];
        }
      }
    }
  }

  /** The items of a walk are the pages' items in request order. */
  lemma {:induction false} CrawlItems(upstream: Upstream, query: string, budget: nat)
    ensures var c := CrawlFrom(upstream, query, budget); c.items == ItemsOf(upstream, c.requests)
    decreases budget
  {
    if budget > 0 && upstream(query).Success? && upstream(query).value.nextPageParams.Some? {
      var c := CrawlFrom(upstream, query, budget);
      var next := CursorQuery(upstream(query).value.nextPageParams.value);
      var rest := CrawlFrom(upstream, next, budget - 1);
      CrawlItems(upstream, next, budget - 1);
      assert c.requests == [query] + rest.requests;
      assert c.requests[1..] == rest.requests;
    }
  }

  /** The properties of `CrawlShape` for the aggregation itself: the first
      request has the empty query string and at most three requests are made. */
  lemma AggregateShape(upstream: Upstream)
    ensures var c := Aggregate(upstream);
      && 1 <= |c.requests| <= MaxPages
      && c.requests[0] == ""
      && (forall i :: 0 <= i < |c.requests| - 1 ==> Forwards(upstream, c.requests[i], c.requests[i + 1]))
      && var last := c.requests[|c.requests| - 1];
      && (upstream(last).Failure? || upstream(last).value.nextPageParams.None? || |c.requests| == MaxPages)
      && (c.error.Some? <==> upstream(last).Failure?)
      && c.items == ItemsOf(upstream, c.requests)
  {
    CrawlShape(upstream, "", MaxPages);
  }
}

=== FILE: index_page.dfy ===
/** The dashboard page's list logic: the filter panel's state, the filtered
    and sorted pool list, the active-filter badge, and the mapping of the
    server's token list into pools. */
module IndexPage {
  import opened Wrappers
  import opened Text
  import opened ArrayOps
  import opened RealtimeData
  import opened MantleHook

  datatype SortKey = ByName | ByNav | ByChange | ByUpdated

  /** A NAV bound typed into the panel: empty, a number, or text that
      `parseFloat` reads as NaN (every comparison with NaN is false). */
  datatype NavBound = Unset | At(value: real) | Unparsable

  /** The filter panel. `"all"` disables a category filter; `sortOrder` other
      than `"asc"` sorts descending. */
  datatype FilterState = FilterState(
    searchQuery: string,
    assetType: string,
    riskLevel: string,
    status: string,
    showRecent: bool,
    sortBy: SortKey,
    sortOrder: string,
    minNav: NavBound,
    maxNav: NavBound)

  /** The panel's initial state. */
  const DefaultFilters := FilterState("", "all", "all", "all", false, ByUpdated, "desc", Unset, Unset)

  /** The lowercased query occurs in the pool's lowercased name, id or tag. */
  predicate SearchHit(query: string, p: Pool) {
    Includes(Lower(p.name), query) || Includes(Lower(p.id), query) || Includes(Lower(p.tag), query)
  }

  predicate PassesSearch(f: FilterState, p: Pool) {
    f.searchQuery == [] || SearchHit(Lower(f.searchQuery), p)
  }

  /** A category filter compares the pool's lowercased field with the filter
      value as it is. */
  predicate PassesCategory(filter: string, field: string) {
    filter == "all" || Lower(field) == filter
  }

  predicate PassesRecent(f: FilterState, p: Pool) {
    !f.showRecent || p.minutesAgo < 1440
  }

  predicate PassesMin(f: FilterState, p: Pool) {
    match f.minNav
    case Unset => true
    case At(x) => p.latestNav >= x
    case Unparsable => false
  }

  predicate PassesMax(f: FilterState, p: Pool) {
    match f.maxNav
    case Unset => true
    case At(x) => p.latestNav <= x
    case Unparsable => false
  }

  /** Whether a pool is shown under the filter panel `f`. */
  predicate Matches(f: FilterState, p: Pool) {
    && PassesSearch(f, p)
    && PassesCategory(f.assetType, p.assetType)
    && PassesCategory(f.riskLevel, p.riskLevel)
    && PassesCategory(f.status, p.status)
    && PassesRecent(f, p)
    && PassesMin(f, p)
    && PassesMax(f, p)
  }

  /** `a` may be listed before `b` in ascending order of `key`; `collate` is
      `localeCompare(...) <= 0`. */
  predicate KeyLe(key: SortKey, collate: (string, string) -> bool, a: Pool, b: Pool) {
    match key
    case ByName => collate(a.name, b.name)
    case ByNav => a.latestNav <= b.latestNav
    case ByChange => a.change24h <= b.change24h
    case ByUpdated => a.minutesAgo <= b.minutesAgo
  }

  /** The order the comparator establishes: by the key, reversed unless the
      sort order is `"asc"`. */
  function ListOrder(f: FilterState, collate: (string, string) -> bool): (Pool, Pool) -> bool {
    (a: Pool, b: Pool) =>
      if f.sortOrder == "asc" then KeyLe(f.sortBy, collate, a, b) else KeyLe(f.sortBy, collate, b, a)
  }

  lemma ListOrderIsTotal(f: FilterState, collate: (string, string) -> bool)
    requires TotalPreorder(collate)
    ensures TotalPreorder(ListOrder(f, collate))
  {
  }

  /** The pool passes the first `k` of the seven filters, in the order the
      page applies them. */
  predicate PassesFirst(f: FilterState, p: Pool, k: nat) {
    && (k >= 1 ==> PassesSearch(f, p))
    && (k >= 2 ==> PassesCategory(f.assetType, p.assetType))
    && (k >= 3 ==> PassesCategory(f.riskLevel, p.riskLevel))
    && (k >= 4 ==> PassesCategory(f.status, p.status))
    && (k >= 5 ==> PassesRecent(f, p))
    && (k >= 6 ==> PassesMin(f, p))
    && (k >= 7 ==> PassesMax(f, p))
  }

  /** `s` holds the pools of `pools` that pass the first `k` filters, as often
      as `pools` does. */
  ghost predicate KeepsFirst(s: seq<Pool>, pools: seq<Pool>, f: FilterState, k: nat) {
    forall p :: multiset(s)[p] == if PassesFirst(f, p, k) then multiset(pools)[p] else 0
  }

  /** Applying filter `k + 1` as the predicate `keep` when `on`, and
      skipping it otherwise. */
  lemma Narrow(s: seq<Pool>, pools: seq<Pool>, f: FilterState, k: nat, on: bool, keep: Pool -> bool)
    requires KeepsFirst(s, pools, f, k)
    requires forall p :: PassesFirst(f, p, k + 1) == (PassesFirst(f, p, k) && (on ==> keep(p)))
    ensures KeepsFirst(if on then Filter(s, keep) else s, pools, f, k + 1)
  {
  }

  // The predicates the page passes to `filter`, one per filter.
  function SearchKeep(query: string): Pool -> bool {
    (p: Pool) => SearchHit(query, p)
  }

  function AssetKeep(f: FilterState): Pool -> bool {
    (p: Pool) => Lower(p.assetType) == f.assetType
  }

  function RiskKeep(f: FilterState): Pool -> bool {
    (p: Pool) => Lower(p.riskLevel) == f.riskLevel
  }

  function StatusKeep(f: FilterState): Pool -> bool {
    (p: Pool) => Lower(p.status) == f.status
  }

  function RecentKeep(): Pool -> bool {
    (p: Pool) => p.minutesAgo < 1440
  }

  function MinKeep(f: FilterState): Pool -> bool {
    (p: Pool) => PassesMin(f, p)
  }

  function MaxKeep(f: FilterState): Pool -> bool {
    (p: Pool) => PassesMax(f, p)
  }

  // Each filter of the page, applied when the panel switches it on, narrows
  // the list by one more of the seven tests.
  lemma SearchStage(s: seq<Pool>, pools: seq<Pool>, f: FilterState)
    requires KeepsFirst(s, pools, f, 0)
    ensures KeepsFirst(if f.searchQuery != [] then Filter(s, SearchKeep(Lower(f.searchQuery))) else s, pools, f, 1)
  {
    Narrow(s, pools, f, 0, f.searchQuery != [], SearchKeep(Lower(f.searchQuery)));
  }

  lemma AssetStage(s: seq<Pool>, pools: seq<Pool>, f: FilterState)
    requires KeepsFirst(s, pools, f, 1)
    ensures KeepsFirst(if f.assetType != "all" then Filter(s, AssetKeep(f)) else s, pools, f, 2)
  {
    Narrow(s, pools, f, 1, f.assetType != "all", AssetKeep(f));
  }

  lemma RiskStage(s: seq<Pool>, pools: seq<Pool>, f: FilterState)
    requires KeepsFirst(s, pools, f, 2)
    ensures KeepsFirst(if f.riskLevel != "all" then Filter(s, RiskKeep(f)) else s, pools, f, 3)
  {
    Narrow(s, pools, f, 2, f.riskLevel != "all", RiskKeep(f));
  }

  lemma StatusStage(s: seq<Pool>, pools: seq<Pool>, f: FilterState)
    requires KeepsFirst(s, pools, f, 3)
    ensures KeepsFirst(if f.status != "all" then Filter(s, StatusKeep(f)) else s, pools, f, 4)
  {
    Narrow(s, pools, f, 3, f.status != "all", StatusKeep(f));
  }

  lemma RecentStage(s: seq<Pool>, pools: seq<Pool>, f: FilterState)
    requires KeepsFirst(s, pools, f, 4)
    ensures KeepsFirst(if f.showRecent then Filter(s, RecentKeep()) else s, pools, f, 5)
  {
    Narrow(s, pools, f, 4, f.showRecent, RecentKeep());
  }

  lemma MinStage(s: seq<Pool>, pools: seq<Pool>, f: FilterState)
    requires KeepsFirst(s, pools, f, 5)
    ensures KeepsFirst(if f.minNav != Unset then Filter(s, MinKeep(f)) else s, pools, f, 6)
  {
    Narrow(s, pools, f, 5, f.minNav != Unset, MinKeep(f));
  }

  lemma MaxStage(s: seq<Pool>, pools: seq<Pool>, f: FilterState)
    requires KeepsFirst(s, pools, f, 6)
    ensures KeepsFirst(if f.maxNav != Unset then Filter(s, MaxKeep(f)) else s, pools, f, 7)
  {
    Narrow(s, pools, f, 6, f.maxNav != Unset, MaxKeep(f));
  }

  /** Passing all seven tests is matching the panel. */
  lemma AllStages(s: seq<Pool>, pools: seq<Pool>, f: FilterState)
    requires KeepsFirst(s, pools, f, 7)
    ensures forall p :: multiset(s)[p] == if Matches(f, p) then multiset(pools)[p] else 0
  {
    assert forall p :: PassesFirst(f, p, 7) == Matches(f, p);
  }

  /** Sorting the pools that passed all seven tests. */
  lemma SortStage(s: seq<Pool>, pools: seq<Pool>, f: FilterState, collate: (string, string) -> bool)
    requires TotalPreorder(collate)
    requires KeepsFirst(s, pools, f, 7)
    ensures var r := SortBy(s, ListOrder(f, collate));
      && (forall p :: multiset(r)[p] == if Matches(f, p) then multiset(pools)[p] else 0)
      && (forall p | p in r :: p in pools && Matches(f, p))
      && Sorted(r, ListOrder(f, collate))
      && (ActiveFilters(f) == {} && f.searchQuery == [] ==> multiset(r) == multiset(pools))
  {
    var r := SortBy(s, ListOrder(f, collate));
    AllStages(s, pools, f);
    ListOrderIsTotal(f, collate);
    SortBySorted(s, ListOrder(f, collate));
    assert forall p | p in r :: p in multiset(r);
    if ActiveFilters(f) == {} && f.searchQuery == [] {
      InactiveFiltersShowAll(f);
      assert multiset(r) == multiset(pools);
    }
  }

  /** `filteredPools`: the filters one after the other, then the stable sort.
      The list holds each matching pool as often as `pools` does and no other,
      in the order the panel asks for. */
  method FilteredPools(pools: seq<Pool>, filters: FilterState, collate: (string, string) -> bool)
    returns (result: seq<Pool>)
    requires TotalPreorder(collate)
    ensures forall p :: multiset(result)[p] == if Matches(filters, p) then multiset(pools)[p] else 0
    ensures forall p | p in result :: p in pools && Matches(filters, p)
    ensures Sorted(result, ListOrder(filters, collate))
    ensures ActiveFilters(filters) == {} && filters.searchQuery == [] ==> multiset(result) == multiset(pools)
  {
    result := pools;
    SearchStage(result, pools, filters);
    if filters.searchQuery != [] {
      var query := Lower(filters.searchQuery);
      result := Filter(result, SearchKeep(query));
    }
    AssetStage(result, pools, filters);
    if filters.assetType != "all" {
      result := Filter(result, AssetKeep(filters));
    }
    RiskStage(result, pools, filters);
    if filters.riskLevel != "all" {
      result := Filter(result, RiskKeep(filters));
    }
    StatusStage(result, pools, filters);
    if filters.status != "all" {
      result := Filter(result, StatusKeep(filters));
    }
    RecentStage(result, pools, filters);
    if filters.showRecent {
      result := Filter(result, RecentKeep());
    }
    MinStage(result, pools, filters);
    if filters.minNav != Unset {
      result := Filter(result, MinKeep(filters));
    }
    MaxStage(result, pools, filters);
    if filters.maxNav != Unset {
      result := Filter(result, MaxKeep(filters));
    }
    SortStage(result, pools, filters, collate);
    result := SortBy(result, ListOrder(filters, collate));
  }

  /** The filters that count towards the badge; the search box and the sort
      settings do not, and a NAV range counts once. */
  datatype FilterKind = AssetFilter | RiskFilter | StatusFilter | RecentFilter | NavRangeFilter

  /** `{k}` when the filter of kind `k` is switched on, `{}` otherwise. */
  function Badge(on: bool, k: FilterKind): (b: set<FilterKind>)
    ensures |b| == if on then 1 else 0
    ensures b == {} || b == {k}
  {
    if on then {k} else {}
  }

  /** The kinds switched on, given which of the five filters are on. */
  function Badges(asset: bool, risk: bool, status: bool, recent: bool, range: bool): set<FilterKind> {
    Badge(asset, AssetFilter) + Badge(risk, RiskFilter) + Badge(status, StatusFilter)
    + Badge(recent, RecentFilter) + Badge(range, NavRangeFilter)
  }

  /** The switched-on filters; `minNav || maxNav` tests for a non-empty bound. */
  function ActiveFilters(f: FilterState): set<FilterKind> {
    Badges(f.assetType != "all", f.riskLevel != "all", f.status != "all", f.showRecent,
           f.minNav != Unset || f.maxNav != Unset)
  }

  function Ind(on: bool): nat {
    if on then 1 else 0
  }

  /** The position of each kind on the badge's list. */
  function Rank(k: FilterKind): nat {
    match k
    case AssetFilter => 0
    case RiskFilter => 1
    case StatusFilter => 2
    case RecentFilter => 3
    case NavRangeFilter => 4
  }

  /** Adding the badge of a kind ranked after all counted kinds adds its size. */
  lemma AddBadge(counted: set<FilterKind>, on: bool, k: FilterKind)
    requires forall j | j in counted :: Rank(j) < Rank(k)
    ensures |counted + Badge(on, k)| == |counted| + Ind(on)
    ensures forall j | j in counted + Badge(on, k) :: Rank(j) <= Rank(k)
  {
    if on {
      assert k !in counted;
      assert counted + Badge(on, k) == counted + {k};
    } else {
      assert counted + Badge(on, k) == counted;
    }
  }

  /** Five badges of five different kinds add up their sizes. */
  lemma FiveBadges(a: bool, b: bool, c: bool, d: bool, e: bool)
    ensures |Badges(a, b, c, d, e)| == Ind(a) + Ind(b) + Ind(c) + Ind(d) + Ind(e)
  {
    var s1 := Badge(a, AssetFilter);
    var s2 := s1 + Badge(b, RiskFilter);
    var s3 := s2 + Badge(c, StatusFilter);
    var s4 := s3 + Badge(d, RecentFilter);
    AddBadge({}, a, AssetFilter);
    AddBadge(s1, b, RiskFilter);
    AddBadge(s2, c, StatusFilter);
    AddBadge(s3, d, RecentFilter);
    AddBadge(s4, e, NavRangeFilter);
  }

  /** `activeFiltersCount`: the number of switched-on filters, at most five. */
  method ActiveFiltersCount(f: FilterState) returns (count: nat)
    ensures count == |ActiveFilters(f)| && count <= 5
  {
    ghost var asset, risk, status := f.assetType != "all", f.riskLevel != "all", f.status != "all";
    ghost var range := f.minNav != Unset || f.maxNav != Unset;
    FiveBadges(asset, risk, status, f.showRecent, range);
    count := 0;
    if f.assetType != "all" {
      count := count + 1;
    }
    assert count == Ind(asset);
    if f.riskLevel != "all" {
      count := count + 1;
    }
    assert count == Ind(asset) + Ind(risk);
    if f.status != "all" {
      count := count + 1;
    }
    assert count == Ind(asset) + Ind(risk) + Ind(status);
    if f.showRecent {
      count := count + 1;
    }
    if f.minNav != Unset || f.maxNav != Unset {
      count := count + 1;
    }
  }

  /** The search box and the sort settings never count. */
  lemma BadgeIgnoresSearchAndSort(f: FilterState, query: string, key: SortKey, order: string)
    ensures ActiveFilters(f.(searchQuery := query, sortBy := key, sortOrder := order)) == ActiveFilters(f)
  {
    var g := f.(searchQuery := query, sortBy := key, sortOrder := order);
    assert g.assetType == f.assetType && g.riskLevel == f.riskLevel && g.status == f.status;
    assert g.showRecent == f.showRecent && g.minNav == f.minNav && g.maxNav == f.maxNav;
  }

  /** The two NAV bounds count as one filter, switched on when either is set. */
  lemma NavRangeCountsOnce(f: FilterState)
    ensures NavRangeFilter in ActiveFilters(f) <==> f.minNav != Unset || f.maxNav != Unset
  {
    var others := Badge(f.assetType != "all", AssetFilter) + Badge(f.riskLevel != "all", RiskFilter)
      + Badge(f.status != "all", StatusFilter) + Badge(f.showRecent, RecentFilter);
    assert NavRangeFilter !in others;
  }

  /** With no badge filter and an empty search box every pool is shown, so the
      list is `pools` reordered; the initial panel is such a state. */
  lemma InactiveFiltersShowAll(f: FilterState)
    requires ActiveFilters(f) == {} && f.searchQuery == []
    ensures forall p :: Matches(f, p)
    ensures ActiveFilters(DefaultFilters) == {}
  {
  }

  /** One entry of the server's token list, as the page expected it. */
  datatype ApiToken = ApiToken(id: string, name: string, symbol: string, price: real, change24h: real)

  /** `price / (1 + change / 100)`, without a guard: a change of -100% divides
      by zero and gives no finite price. */
  function PriceBefore(price: real, change: real): (r: Option<real>)
    ensures r.None? <==> change == -100.0
    ensures r.Some? ==> r.value * (1.0 + change / 100.0) == price
  {
    if 1.0 + change / 100.0 == 0.0 then None else Some(price / (1.0 + change / 100.0))
  }

  /** The hook's zero-change guard changes nothing: without it the division
      by 1 gives the current price anyway. */
  lemma GuardIsRedundant(price: real, change: real)
    ensures PreviousPrice(price, change) == PriceBefore(price, change)
  {
  }

  /** `transformMantleData`: one pool per token, in order, all of them active
      real-world assets of medium risk updated just now. */
  function TransformMantleData(tokens: seq<ApiToken>): (pools: seq<Pool>)
    ensures |pools| == |tokens|
    ensures forall i | 0 <= i < |tokens| ::
      && pools[i].id == tokens[i].id && pools[i].tag == tokens[i].symbol
      && pools[i].latestNav == tokens[i].price && pools[i].change24h == tokens[i].change24h
      && pools[i].previousNav == PriceBefore(tokens[i].price, tokens[i].change24h)
    ensures forall i | 0 <= i < |tokens| ::
      && pools[i].name == tokens[i].name && pools[i].assetType == "RWA"
      && pools[i].riskLevel == "Medium" && pools[i].status == "active" && pools[i].minutesAgo == 0
      && pools[i].unitPrice.None? && pools[i].unitsOutstanding.None?
    ensures PoolStats(pools).activePoolsCount == |tokens|
  {
    var pools := seq(|tokens|, i requires 0 <= i < |tokens| =>
      Pool(tokens[i].id, tokens[i].name, tokens[i].symbol, "RWA", "Medium", "active",
           tokens[i].price, PriceBefore(tokens[i].price, tokens[i].change24h),
           tokens[i].change24h, 0, None, None));
    assert forall p | p in pools :: IsActive(p);
    pools
  }
}

=== FILE: mantle_controller.dfy ===
/** The `GET` handler for the Mantle token list, as compiled: answer from the
    table when it holds mantle rows; otherwise refresh it from the explorer
    once, then answer from the table. */
module MantleController {
  import opened Wrappers
  import opened Explorer
  import opened TokenStore
  import opened MantleService

  /** What the handler puts in the JSON response. */
  datatype Body = Tokens(rows: seq<Row>) | ErrorMessage(message: string)

  datatype Response = Response(status: int, body: Body)

  /** The JSON answer carries the tokens exactly when the status is 200. */
  predicate WellFormed(response: Response) {
    && (response.status == 200 || response.status == 400)
    && (response.status == 200 <==> response.body.Tokens?)
  }

  /** What saving then reading does to the round trip schedule. */
  datatype Refresh = Refresh(saved: bool, error: Option<string>, calls: nat)

  /** Save `records` starting at round trip `n`, then read the table again
      unless the save failed. A non-empty save is round trip `n` and the read
      follows it; an empty batch is saved without a round trip. `error` is
      the first error thrown, and `calls` the round trip count afterwards. */
  function Refreshing(table: TokenTable, n: nat, records: seq<Row>): (r: Refresh)
    ensures r.saved <==> Applied(table.dialect, table.Fault(n), records)
    ensures records == [] ==> r == Refresh(true, table.Fault(n), n + 1)
    ensures !r.saved ==> r.calls == n + 1 && r.error.Some?
    ensures !r.saved && table.Fault(n).Some? ==> r.error == table.Fault(n)
    ensures !r.saved && table.Fault(n).None? ==> r.error == Some(RepeatedKey)
    ensures r.saved && records != [] ==> r == Refresh(true, table.Fault(n + 1), n + 2)
  {
    var fault := table.Fault(n);
    if Applied(table.dialect, fault, records) then
      var read := n + Trips(records);
      Refresh(true, table.Fault(read), read + 1)
    else
      Refresh(false, if fault.Some? then fault else Some(RepeatedKey), n + 1)
  }

  /** Save `tokens` and read the table again, as `Refreshing` schedules it. */
  method SaveAndRead(table: TokenTable, tokens: seq<TokenItem>) returns (outcome: Result<seq<Row>, string>)
    requires table.Valid()
    modifies table
    ensures table.Valid()
    ensures var f := Refreshing(table, old(table.calls), Records(tokens));
      && table.rows == (if f.saved then UpsertAll(old(table.rows), Records(tokens)) else old(table.rows))
      && table.calls == f.calls
      && (f.error.Some? ==> outcome == Failure(f.error.value))
      && (f.error.None? ==> outcome.Success? && IsTopMantleRows(outcome.value, table.rows))
  {
    ghost var f := Refreshing(table, table.calls, Records(tokens));
    var stored := SaveTokens(table, tokens);
    if stored.Failure? {
      assert !f.saved;
      return Failure(stored.error);
    }
    assert f.saved && table.calls + 1 == f.calls;
    outcome := GetTokensFromDB(table);
  }

  /** The cache-miss branch of `getMantleTokens`: fetch the top tokens from
      the explorer, save them and answer from the table, a thrown error
      becoming a 400 answer with its message. `fetched` is the list the fetch
      returned. */
  method RefreshAndAnswer(table: TokenTable, upstream: Upstream)
    returns (response: Response, ghost requests: seq<string>, ghost fetched: seq<TokenItem>)
    requires table.Valid()
    modifies table
    ensures table.Valid() && WellFormed(response)
    ensures response.body.Tokens? ==> IsTopMantleRows(response.body.rows, table.rows)
    ensures requests == Aggregate(upstream).requests && fetched == FetchedOrEmpty(upstream)
    ensures var f := Refreshing(table, old(table.calls), Records(fetched));
      && table.rows == (if f.saved then UpsertAll(old(table.rows), Records(fetched)) else old(table.rows))
      && table.calls == f.calls
      && (f.error.Some? ==> response == Response(400, ErrorMessage(f.error.value)))
      && (f.error.None? ==> response.status == 200)
  {
    var tokens;
    tokens, requests := FetchTopMantleTokensCompiled(upstream);
    fetched := tokens;
    var refreshed := SaveAndRead(table, tokens);
    if refreshed.Failure? {
      return Response(400, ErrorMessage(refreshed.error)), requests, fetched;
    }
    return Response(200, Tokens(refreshed.value)), requests, fetched;
  }

  /** `getMantleTokens`. Any error thrown by a database round trip becomes a
      400 answer carrying its message; the compiled fetch never throws. Let
      `n` be the round trip count on entry. */
  method GetMantleTokens(table: TokenTable, upstream: Upstream) returns (response: Response, ghost requests: seq<string>)
    requires table.Valid()
    modifies table
    ensures table.Valid() && WellFormed(response)
    ensures response.body.Tokens? ==> IsTopMantleRows(response.body.rows, table.rows)
    // the first read fails
    ensures table.Fault(old(table.calls)).Some? ==>
      && response == Response(400, ErrorMessage(table.Fault(old(table.calls)).value))
      && requests == [] && table.rows == old(table.rows) && table.calls == old(table.calls) + 1
    // the table already holds mantle rows: answer from it, without refreshing
    ensures table.Fault(old(table.calls)).None? && MantleAddresses(old(table.rows)) != {} ==>
      && response.status == 200
      && requests == [] && table.rows == old(table.rows) && table.calls == old(table.calls) + 1
    // no mantle rows yet: one refresh, then the second read decides
    ensures table.Fault(old(table.calls)).None? && MantleAddresses(old(table.rows)) == {} ==>
      var records := Records(FetchedOrEmpty(upstream));
      var f := Refreshing(table, old(table.calls) + 1, records);
      && requests == Aggregate(upstream).requests
      && table.rows == (if f.saved then UpsertAll(old(table.rows), records) else old(table.rows))
      && table.calls == f.calls
      && (f.error.Some? ==> response == Response(400, ErrorMessage(f.error.value)))
      && (f.error.None? ==> response.status == 200)
    // nothing fetched (an unreachable explorer, or no qualifying token) on an
    // empty table: two reads and no save; the second read decides between an
    // empty list and its error
    ensures table.Fault(old(table.calls)).None? && MantleAddresses(old(table.rows)) == {} &&
            FetchedOrEmpty(upstream) == [] ==>
      && table.rows == old(table.rows) && table.calls == old(table.calls) + 2
      && (table.Fault(old(table.calls) + 1).None? ==> response == Response(200, Tokens([])))
      && (table.Fault(old(table.calls) + 1).Some? ==>
            response == Response(400, ErrorMessage(table.Fault(old(table.calls) + 1).value)))
  {
    requests := [];
    var first := GetTokensFromDB(table);
    if first.Failure? {
      return Response(400, ErrorMessage(first.error)), requests;
    }
    var tokens := first.value;
    EmptyAnswer(tokens, table.rows);
    if |tokens| == 0 {
      assert Records([]) == [];
      ghost var fetched;
      response, requests, fetched := RefreshAndAnswer(table, upstream);
      if response.body.Tokens? {
        EmptyAnswer(response.body.rows, table.rows);
      }
      return;
    }
    return Response(200, Tokens(tokens)), requests;
  }
}

=== FILE: mantle_hook.dfy ===
/** The client hook that turns the market listing of Mantle tokens into pools
    and summarises them. The request, the polling interval and the React state
    are left out: the hook's logic is the mapping and the statistics. */
module MantleHook {
  import opened Wrappers
  import opened Text
  import opened RealtimeData

  /** One entry of the market listing, numbers already parsed. `None` is a
      JSON `null`. */
  datatype MarketToken = MarketToken(
    id: string,
    symbol: string,
    name: string,
    currentPrice: real,
    marketCap: real,
    marketCapRank: Option<int>,
    priceChange24h: Option<real>,
    circulatingSupply: Option<real>)

  /** The three risk classes, from the lowest. */
  function RiskOrder(level: string): nat {
    if level == "Low" then 0 else if level == "Medium" then 1 else 2
  }

  /** The risk class of a market-cap rank: the top 100 are low risk, the top
      500 medium, the rest high. A `null` rank compares as 0. */
  function RiskLevel(rank: Option<int>): (level: string)
    ensures level == "Low" <==> rank.GetOr(0) <= 100
    ensures level == "Medium" <==> 100 < rank.GetOr(0) <= 500
    ensures level == "High" <==> 500 < rank.GetOr(0)
  {
    var r := rank.GetOr(0);
    if r <= 100 then "Low" else if r <= 500 then "Medium" else "High"
  }

  /** A worse rank never means a lower risk class. */
  lemma RiskMonotone(a: int, b: int)
    requires a <= b
    ensures RiskOrder(RiskLevel(Some(a))) <= RiskOrder(RiskLevel(Some(b)))
  {
  }

  /** `price_change_percentage_24h || 0`. */
  function Change(t: MarketToken): (r: real)
    ensures r == 0.0 <==> t.priceChange24h.None? || t.priceChange24h == Some(0.0)
    ensures r != 0.0 ==> t.priceChange24h == Some(r)
  {
    t.priceChange24h.GetOr(0.0)
  }

  /** The price 24 hours ago implied by the current price and the change in
      percent, guarded against a zero change. A change of -100% divides by
      zero, which gives no finite price. */
  function PreviousPrice(price: real, change: real): (r: Option<real>)
    ensures change == 0.0 ==> r == Some(price)
    ensures r.None? <==> change == -100.0
    ensures r.Some? ==> r.value * (1.0 + change / 100.0) == price
  {
    if change != 0.0 then
      if 1.0 + change / 100.0 == 0.0 then None else Some(price / (1.0 + change / 100.0))
    else Some(price)
  }

  /** A net asset value: a unit price times the circulating supply, a `null`
      supply counting as 0. */
  function Nav(price: real, supply: Option<real>): real {
    price * supply.GetOr(0.0)
  }

  /** The pool the hook builds from one listing entry. */
  function ToPool(t: MarketToken): (p: Pool)
    ensures p.id == t.id && p.name == t.name && p.tag == Upper(t.symbol)
    ensures p.assetType == "Crypto" && p.status == "active" && p.minutesAgo == 0
    ensures p.riskLevel == RiskLevel(t.marketCapRank)
    ensures p.latestNav == t.marketCap && p.change24h == Change(t)
    ensures p.unitPrice == Some(t.currentPrice) && p.unitsOutstanding == t.circulatingSupply
    // the NAV 24 hours ago: the previous price times the supply
    ensures Change(t) == 0.0 ==> p.previousNav == Some(Nav(t.currentPrice, t.circulatingSupply))
    ensures p.previousNav.None? <==> Change(t) == -100.0
    ensures p.previousNav.Some? ==>
      p.previousNav.value * (1.0 + Change(t) / 100.0) == Nav(t.currentPrice, t.circulatingSupply)
  {
    var previous := PreviousPrice(t.currentPrice, Change(t));
    var nav := if previous.Some? then Some(Nav(previous.value, t.circulatingSupply)) else None;
    assert nav.Some? ==> nav.value * (1.0 + Change(t) / 100.0) == Nav(t.currentPrice, t.circulatingSupply) by {
      if previous.Some? {
        var k := 1.0 + Change(t) / 100.0;
        var supply := t.circulatingSupply.GetOr(0.0);
        assert previous.value * supply * k == (previous.value * k) * supply;
      }
    }
    Pool(t.id, t.name, Upper(t.symbol), "Crypto", RiskLevel(t.marketCapRank), "active",
         t.marketCap, nav, Change(t), 0, Some(t.currentPrice), t.circulatingSupply)
  }

  /** `mantleTokens.map(...)`: one pool per entry, in the same order. */
  function ToPools(tokens: seq<MarketToken>): (pools: seq<Pool>)
    ensures |pools| == |tokens|
    ensures forall i | 0 <= i < |tokens| :: pools[i] == ToPool(tokens[i])
  {
    seq(|tokens|, i requires 0 <= i < |tokens| => ToPool(tokens[i]))
  }

  /** A freshly mapped pool is healthy, labelled "Just now", and its tag
      matches a search for the symbol in any letter case. */
  lemma FreshPool(t: MarketToken)
    ensures GetStatus(ToPool(t).minutesAgo) == Healthy
    ensures FormatTimeAgo(ToPool(t).minutesAgo) == "Just now"
    ensures Lower(ToPool(t).tag) == Lower(t.symbol)
  {
    LowerOfUpper(t.symbol);
  }

  /** The hook's `stats`: every mapped pool is active, and an empty listing
      has no mean change. */
  lemma {:induction false} HookStats(tokens: seq<MarketToken>)
    ensures PoolStats(ToPools(tokens)).activePoolsCount == |tokens|
    ensures tokens == [] ==> PoolStats(ToPools(tokens)).navChange == 0.0
  {
    var pools := ToPools(tokens);
    forall p | p in pools ensures IsActive(p) {
      var i :| 0 <= i < |pools| && pools[i] == p;
    }
  }
}

=== FILE: mantle_service.dfy ===
/** The token service: `fetchTopMantleTokens` (bounded pagination, then
    filter, rank and cut to the top 100), `saveTokens` (record mapping and keyed
    upsert) and `getTokensFromDB` (the top rows of the `mantle` network).
    The TypeScript source throws when fetching fails; its compiled copy returns
    an empty list instead. Both are modelled. */
module MantleService {
  import opened Wrappers
  import opened ArrayOps
  import opened Explorer
  import opened TokenStore

  const Network := "mantle"
  const Erc20 := "ERC-20"

  /** Size of the ranking window (`slice(0, 100)`, `limit: 100`). */
  const TopWindow: nat := 100

  /** `Number(x)` for an already-parsed nullable decimal: `Number(null)` is 0. */
  function NumberOf(x: Option<real>): real {
    x.GetOr(0.0)
  }

  /** The filter of the ranking step: a fungible token with a price and a market cap. */
  predicate Qualifies(t: TokenItem) {
    t.tokenType == Erc20 && t.exchangeRate.Some? && t.circulatingMarketCap.Some?
  }

  function CapOf(t: TokenItem): real {
    NumberOf(t.circulatingMarketCap)
  }

  /** The comparator `Number(b.cap) - Number(a.cap)`: larger caps first. */
  predicate CapNotBelow(a: TokenItem, b: TokenItem) {
    CapOf(a) >= CapOf(b)
  }

  lemma CapOrderIsTotal()
    ensures TotalPreorder(CapNotBelow)
  {
  }

  /** filter, sort by market cap descending, keep the first 100. */
  function TopTokens(items: seq<TokenItem>): (r: seq<TokenItem>)
    ensures forall t | t in r :: Qualifies(t)
    ensures Sorted(r, CapNotBelow)
    ensures |r| == Min(TopWindow, |Filter(items, Qualifies)|)
    ensures multiset(r) <= multiset(Filter(items, Qualifies))
    ensures forall t, k :: t in multiset(Filter(items, Qualifies)) - multiset(r) && k in r ==> CapOf(t) <= CapOf(k)
  {
    var qualifying := Filter(items, Qualifies);
    CapOrderIsTotal();
    var r := TopN(qualifying, CapNotBelow, TopWindow);
    assert forall t | t in r :: Qualifies(t) by {
      forall t | t in r ensures Qualifies(t) {
        assert t in multiset(qualifying);
      }
    }
    assert forall t, k :: t in multiset(qualifying) - multiset(r) && k in r ==> CapOf(t) <= CapOf(k) by {
      forall t, k | t in multiset(qualifying) - multiset(r) && k in r ensures CapOf(t) <= CapOf(k) {
        assert CapNotBelow(k, t);
      }
    }
    r
  }

  /** The aggregation state after `requests` were made and `items` collected,
      with the walk `c` still to come. */
  ghost function Then(requests: seq<string>, items: seq<TokenItem>, c: Crawl): Crawl {
    Crawl(requests + c.requests, items + c.items, c.error)
  }

  /** One more request of the walk, seen from the loop: a failure or a page
      without cursor ends it, a cursor leaves one page less of budget. */
  lemma ThenStep(upstream: Upstream, requests: seq<string>, items: seq<TokenItem>, query: string, budget: nat)
    requires budget > 0
    ensures var now := Then(requests, items, CrawlFrom(upstream, query, budget));
      && (upstream(query).Failure? ==>
            now == Crawl(requests + [query], items, Some(upstream(query).error)))
      && (upstream(query).Success? && upstream(query).value.nextPageParams.None? ==>
            now == Crawl(requests + [query], items + upstream(query).value.items, None))
      && (upstream(query).Success? && upstream(query).value.nextPageParams.Some? ==>
            now == Then(requests + [query], items + upstream(query).value.items,
                        CrawlFrom(upstream, CursorQuery(upstream(query).value.nextPageParams.value), budget - 1)))
  {
    match upstream(query)
    case Failure(_) =>
    case Success(page) =>
      match page.nextPageParams
      case None =>
      case Some(cursor) =>
        var rest := CrawlFrom(upstream, CursorQuery(cursor), budget - 1);
        assert (requests + [query]) + rest.requests == requests + ([query] + rest.requests);
        assert (items + page.items) + rest.items == items + (page.items + rest.items);
  }

  /** With no budget left the walk is over. */
  lemma ThenDone(upstream: Upstream, requests: seq<string>, items: seq<TokenItem>, query: string)
    ensures Then(requests, items, CrawlFrom(upstream, query, 0)) == Crawl(requests, items, None)
  {
    assert requests + [] == requests;
    assert items + [] == items;
  }

  /** `fetchTopMantleTokens` of the TypeScript source: a `for` loop over at most
      three pages; any failure is rethrown, so no partial list is returned.
      `requests` is the log of the query strings fetched. */
  method FetchTopMantleTokens(upstream: Upstream) returns (result: Result<seq<TokenItem>, string>, ghost requests: seq<string>)
    ensures requests == Aggregate(upstream).requests
    ensures result.Failure? <==> Aggregate(upstream).error.Some?
    ensures result.Failure? ==> result.error == Aggregate(upstream).error.value
    ensures result.Success? ==> result.value == TopTokens(Aggregate(upstream).items)
  {
    ghost var whole := Aggregate(upstream);
    var allTokens: seq<TokenItem> := [];
    var params := "";
    var failure: Option<string> := None;
    requests := [];
    for i := 0 to MaxPages
      invariant failure.None? && |requests| == i
      invariant whole == Then(requests, allTokens, CrawlFrom(upstream, params, MaxPages - i))
    {
      ThenStep(upstream, requests, allTokens, params, MaxPages - i);
      var response := upstream(params);
      requests := requests + [params];
      if response.Failure? {
        // the exception leaves the loop; the handler rethrows it
        failure := Some(response.error);
        break;
      }
      var data := response.value;
      allTokens := allTokens + data.items;
      if data.nextPageParams.None? {
        break;
      }
      params := CursorQuery(data.nextPageParams.value);
    }
    if failure.None? && |requests| == MaxPages {
      ThenDone(upstream, requests, allTokens, params);
    }
    assert whole == Crawl(requests, allTokens, failure);
    if failure.Some? {
      return Failure(failure.value), requests;
    }
    result := Success(TopTokens(allTokens));
  }

  /** What the compiled service returns: the top tokens, or the empty list when
      the aggregation failed (pages already collected are discarded). */
  function FetchedOrEmpty(upstream: Upstream): (r: seq<TokenItem>)
    ensures forall t | t in r :: Qualifies(t)
    ensures Sorted(r, CapNotBelow) && |r| <= TopWindow
    ensures Aggregate(upstream).error.Some? ==> r == []
  {
    var c := Aggregate(upstream);
    if c.error.Some? then [] else TopTokens(c.items)
  }

  /** `fetchTopMantleTokens` of the compiled service: a `while` loop guarded by
      `pageCount < 3`; the loop breaks on a missing cursor before the counter is
      incremented, and any error is swallowed into the empty list. */
  method FetchTopMantleTokensCompiled(upstream: Upstream) returns (tokens: seq<TokenItem>, ghost requests: seq<string>)
    ensures requests == Aggregate(upstream).requests
    ensures Aggregate(upstream).error.Some? ==> tokens == []
    ensures Aggregate(upstream).error.None? ==> tokens == TopTokens(Aggregate(upstream).items)
    ensures tokens == FetchedOrEmpty(upstream)
  {
    ghost var whole := Aggregate(upstream);
    var allTokens: seq<TokenItem> := [];
    var params := "";
    var pageCount := 0;
    var failure: Option<string> := None;
    requests := [];
    while pageCount < MaxPages
      invariant 0 <= pageCount <= MaxPages
      invariant failure.None?
      invariant whole == Then(requests, allTokens, CrawlFrom(upstream, params, MaxPages - pageCount))
    {
      ThenStep(upstream, requests, allTokens, params, MaxPages - pageCount);
      var response := upstream(params);
      requests := requests + [params];
      if response.Failure? {
        failure := Some(response.error);
        break;
      }
      var data := response.value;
      allTokens := allTokens + data.items;
      if data.nextPageParams.None? {
        break;
      }
      params := CursorQuery(data.nextPageParams.value);
      pageCount := pageCount + 1;
    }
    if pageCount == MaxPages {
      ThenDone(upstream, requests, allTokens, params);
    }
    assert whole == Crawl(requests, allTokens, failure);
    if failure.Some? {
      // the handler logs the error and answers with no tokens
      return [], requests;
    }
    tokens := TopTokens(allTokens);
  }

  /** The record `saveTokens` builds from one token. */
  function ToRecord(t: TokenItem): (r: Row)
    ensures r.address == t.address && r.network == Network
  {
    Row(t.address, t.symbol, t.name, t.decimals.GetOr(0),
        NumberOf(t.exchangeRate), NumberOf(t.circulatingMarketCap), t.totalSupply, t.holders, t.iconUrl,
        t.tokenType, Network)
  }

  function Records(tokens: seq<TokenItem>): (r: seq<Row>)
    ensures |r| == |tokens|
    ensures forall i | 0 <= i < |r| :: r[i] == ToRecord(tokens[i])
  {
    seq(|tokens|, i requires 0 <= i < |tokens| => ToRecord(tokens[i]))
  }

  /** `saveTokens`: map every token to its record and bulk-upsert the batch.
      Saving no tokens sends nothing to the database and succeeds. */
  method SaveTokens(table: TokenTable, tokens: seq<TokenItem>) returns (outcome: Result<(), string>)
    requires table.Valid()
    modifies table
    ensures table.Valid()
    ensures table.calls == old(table.calls) + Trips(Records(tokens))
    ensures tokens == [] ==> outcome.Success? && table.rows == old(table.rows) && table.calls == old(table.calls)
    ensures Applied(table.dialect, table.Fault(old(table.calls)), Records(tokens)) ==>
      outcome.Success? && table.rows == UpsertAll(old(table.rows), Records(tokens))
    ensures !Applied(table.dialect, table.Fault(old(table.calls)), Records(tokens)) &&
            table.Fault(old(table.calls)).Some? ==>
      outcome == Failure(table.Fault(old(table.calls)).value) && table.rows == old(table.rows)
    ensures !Applied(table.dialect, table.Fault(old(table.calls)), Records(tokens)) &&
            table.Fault(old(table.calls)).None? ==>
      outcome == Failure(RepeatedKey) && table.rows == old(table.rows)
  {
    outcome := table.BulkCreate(Records(tokens));
  }

  /** After a successful save, every token's address has a row whose seven
      update columns come from that token; a row that was new is the token's
      record, with network "mantle"; a row that existed keeps its `decimals`,
      `type` and `network`; rows of other addresses are unchanged. */
  lemma SavedRows(rows: map<string, Row>, tokens: seq<TokenItem>)
    requires DistinctAddresses(Records(tokens))
    ensures var saved := UpsertAll(rows, Records(tokens));
      && (forall i | 0 <= i < |tokens| ::
            && tokens[i].address in saved
            && HasUpdatedColumns(saved[tokens[i].address], ToRecord(tokens[i]))
            && (tokens[i].address !in rows ==> saved[tokens[i].address] == ToRecord(tokens[i]))
            && (tokens[i].address in rows ==>
                  && saved[tokens[i].address].decimals == rows[tokens[i].address].decimals
                  && saved[tokens[i].address].tokenType == rows[tokens[i].address].tokenType
                  && saved[tokens[i].address].network == rows[tokens[i].address].network))
      && (forall a | a in rows && a !in Addresses(Records(tokens)) :: a in saved && saved[a] == rows[a])
      && (forall a | a in saved && a !in rows :: saved[a].network == Network)
  {
    var records := Records(tokens);
    var saved := UpsertAll(rows, records);
    UpsertAllFrame(rows, records);
    UpsertAllEffect(rows, records);
    forall i | 0 <= i < |tokens|
      ensures tokens[i].address in saved
      ensures HasUpdatedColumns(saved[tokens[i].address], ToRecord(tokens[i]))
    {
      assert records[i] == ToRecord(tokens[i]);
    }
    forall a | a in saved && a !in rows ensures saved[a].network == Network {
      var i :| 0 <= i < |records| && records[i].address == a;
    }
  }

  /** The `order: [["circulatingMarketCap", "DESC"]]` comparison. */
  predicate RowCapNotBelow(a: Row, b: Row) {
    a.circulatingMarketCap >= b.circulatingMarketCap
  }

  function MantleAddresses(rows: map<string, Row>): set<string> {
    set a | a in rows && rows[a].network == Network
  }

  /** `r` is an answer to `findAll({ where: { network: "mantle" }, order:
      [["circulatingMarketCap", "DESC"]], limit: 100 })` on `rows`: distinct rows
      of the table, all of network "mantle", by market cap descending, as many as
      there are such rows up to 100, and every such row left out has a cap no
      larger than the last one returned. SQL leaves the order of equal caps open,
      and so does this predicate. */
  ghost predicate IsTopMantleRows(r: seq<Row>, rows: map<string, Row>) {
    && (forall i | 0 <= i < |r| :: r[i].address in rows && rows[r[i].address] == r[i] && r[i].network == Network)
    && (forall i, j | 0 <= i < j < |r| :: r[i].address != r[j].address)
    && Sorted(r, RowCapNotBelow)
    && |r| == Min(TopWindow, |MantleAddresses(rows)|)
    && (forall a | a in MantleAddresses(rows) && rows[a] !in r ::
          r != [] && rows[a].circulatingMarketCap <= r[|r| - 1].circulatingMarketCap)
  }

  /** `scanned` holds the table's rows of network "mantle", each once. */
  ghost predicate IsMantleScan(scanned: seq<Row>, rows: map<string, Row>) {
    && (forall x | x in scanned :: x.address in rows && rows[x.address] == x && x.network == Network)
    && (forall a | a in MantleAddresses(rows) :: rows[a] in scanned)
    && (forall x :: multiset(scanned)[x] <= 1)
    && |scanned| == |MantleAddresses(rows)|
  }

  /** The `where: { network: "mantle" }` scan: the table's rows of network
      "mantle", visited in some order, each once. */
  method ScanMantle(rows: map<string, Row>) returns (scanned: seq<Row>)
    requires Keyed(rows)
    ensures IsMantleScan(scanned, rows)
  {
    var pending := rows.Keys;
    scanned := [];
    ghost var seen: set<string> := {};
    while pending != {}
      invariant pending <= rows.Keys && seen <= MantleAddresses(rows)
      invariant forall a | a in MantleAddresses(rows) :: a in seen <==> a !in pending
      invariant |scanned| == |seen|
      invariant forall x | x in scanned :: x.address in seen && rows[x.address] == x
      invariant forall a | a in seen :: rows[a] in scanned
      invariant forall x :: multiset(scanned)[x] <= 1
      decreases pending
    {
      var a :| a in pending;
      pending := pending - {a};
      if rows[a].network == Network {
        assert a !in seen;
        assert rows[a] !in scanned;
        assert multiset(scanned + [rows[a]]) == multiset(scanned) + multiset{rows[a]};
        scanned := scanned + [rows[a]];
        seen := seen + {a};
      }
    }
    assert seen == MantleAddresses(rows);
  }

  /** Sorting a scan and keeping its first rows never repeats an address. */
  lemma TopOfScanDistinct(rows: map<string, Row>, scanned: seq<Row>, r: seq<Row>)
    requires IsMantleScan(scanned, rows)
    requires multiset(r) <= multiset(scanned)
    ensures forall i, j | 0 <= i < j < |r| :: r[i].address != r[j].address
    ensures forall x | x in r :: x in scanned
  {
    assert forall x | x in r :: x in multiset(scanned);
    assert forall x :: multiset(r)[x] <= 1;
    OnceEach(r);
    forall i, j | 0 <= i < j < |r| ensures r[i].address != r[j].address {
      assert r[i] in multiset(scanned) && r[j] in multiset(scanned);
    }
  }

  /** The rows a scan leaves out of its top rows have no larger cap than the
      last one kept. */
  lemma TopOfScanOmitted(rows: map<string, Row>, scanned: seq<Row>, r: seq<Row>)
    requires IsMantleScan(scanned, rows)
    requires multiset(r) <= multiset(scanned)
    requires Sorted(r, RowCapNotBelow) && |r| == Min(TopWindow, |scanned|)
    requires forall x, y :: x in multiset(scanned) - multiset(r) && y in r ==> RowCapNotBelow(y, x)
    ensures forall a | a in MantleAddresses(rows) && rows[a] !in r ::
      r != [] && rows[a].circulatingMarketCap <= r[|r| - 1].circulatingMarketCap
  {
    forall a | a in MantleAddresses(rows) && rows[a] !in r
      ensures r != [] && rows[a].circulatingMarketCap <= r[|r| - 1].circulatingMarketCap
    {
      assert rows[a] in multiset(scanned) - multiset(r);
      assert r[|r| - 1] in r;
    }
  }

  /** The database's evaluation of that query: the scan, a sort by cap
      descending, and the limit. */
  method TopMantleRows(rows: map<string, Row>) returns (r: seq<Row>)
    requires Keyed(rows)
    ensures IsTopMantleRows(r, rows)
  {
    var scanned := ScanMantle(rows);
    RowCapOrderIsTotal();
    r := TopN(scanned, RowCapNotBelow, TopWindow);
    TopOfScanDistinct(rows, scanned, r);
    TopOfScanOmitted(rows, scanned, r);
  }

  /** `getTokensFromDB`: one query; it fails as the database does, and
      otherwise answers with the top mantle rows of the table. */
  method GetTokensFromDB(table: TokenTable) returns (result: Result<seq<Row>, string>)
    requires table.Valid()
    modifies table`calls
    ensures table.calls == old(table.calls) + 1
    ensures table.Fault(old(table.calls)).Some? ==> result == Failure(table.Fault(old(table.calls)).value)
    ensures table.Fault(old(table.calls)).None? ==> result.Success? && IsTopMantleRows(result.value, table.rows)
  {
    var fault := table.RoundTrip();
    if fault.Some? {
      return Failure(fault.value);
    }
    var found := TopMantleRows(table.rows);
    return Success(found);
  }

  /** An empty answer means the table holds no mantle row at all. */
  lemma EmptyAnswer(r: seq<Row>, rows: map<string, Row>)
    requires IsTopMantleRows(r, rows)
    ensures r == [] <==> MantleAddresses(rows) == {}
  {
  }

  lemma RowCapOrderIsTotal()
    ensures TotalPreorder(RowCapNotBelow)
  {
  }
}

=== FILE: realtime_data.dfy ===
/** The client's pool record and the two threshold rules that describe how
    fresh a pool's data is: the status badge and the "time ago" label. */
module RealtimeData {
  import opened Wrappers
  import opened Text
  import opened ArrayOps

  /** A pool as the dashboard lists it. Numbers are already parsed; an
      optional field is one the producer may leave out or that has no finite
      value. */
  datatype Pool = Pool(
    id: string,
    name: string,
    tag: string,
    assetType: string,
    riskLevel: string,
    status: string,
    latestNav: real,
    previousNav: Option<real>,
    change24h: real,
    minutesAgo: int,
    unitPrice: Option<real>,
    unitsOutstanding: Option<real>)

  /** The dashboard's summary cards; the update time stamp is left out. */
  datatype Stats = Stats(activePoolsCount: nat, totalNav: real, navChange: real)

  predicate IsActive(p: Pool) {
    p.status == "active"
  }

  /** `reduce((sum, p) => sum + p.latestNav, 0)`. */
  function SumNav(pools: seq<Pool>): real {
    if pools == [] then 0.0 else SumNav(pools[..|pools| - 1]) + pools[|pools| - 1].latestNav
  }

  /** `reduce((sum, p) => sum + p.change24h, 0)`. */
  function SumChange(pools: seq<Pool>): real {
    if pools == [] then 0.0 else SumChange(pools[..|pools| - 1]) + pools[|pools| - 1].change24h
  }

  /** The number of active pools, one pool at a time. */
  function CountActive(pools: seq<Pool>): nat {
    if pools == [] then 0 else (if IsActive(pools[0]) then 1 else 0) + CountActive(pools[1..])
  }

  /** Counting the active pools one by one agrees with the length of
      `pools.filter(p => p.status === "active")`. */
  lemma {:induction false} ActiveCount(pools: seq<Pool>)
    ensures CountActive(pools) == |Filter(pools, IsActive)|
  {
    if pools != [] {
      ActiveCount(pools[1..]);
      var head: seq<Pool> := if IsActive(pools[0]) then [pools[0]] else [];
      assert Filter(pools, IsActive) == head + Filter(pools[1..], IsActive);
    }
  }

  /** The statistics both the page (`calculateStats`) and the token hook
      (`stats`) compute: the number of active pools, the total NAV, and the
      mean 24h change, which is 0 for no pools. */
  function PoolStats(pools: seq<Pool>): (s: Stats)
    ensures s.activePoolsCount <= |pools|
    ensures s.activePoolsCount == |pools| <==> forall p | p in pools :: IsActive(p)
    ensures s.activePoolsCount == 0 <==> forall p | p in pools :: !IsActive(p)
    ensures s.activePoolsCount == CountActive(pools)
    ensures s.totalNav == SumNav(pools)
    ensures pools == [] ==> s.navChange == 0.0 && s.totalNav == 0.0
    ensures pools != [] ==> s.navChange == SumChange(pools) / (|pools| as real)
  {
    var active := Filter(pools, IsActive);
    ActiveCount(pools);
    assert active == [] <==> forall p | p in pools :: !IsActive(p) by {
      if active != [] {
        assert active[0] in active;
      }
    }
    Stats(|active|, SumNav(pools),
          if |pools| > 0 then SumChange(pools) / (|pools| as real) else 0.0)
  }

  lemma {:induction false} SumChangeBounds(pools: seq<Pool>, lo: real, hi: real)
    requires forall i | 0 <= i < |pools| :: lo <= pools[i].change24h <= hi
    ensures lo * (|pools| as real) <= SumChange(pools) <= hi * (|pools| as real)
  {
    if pools != [] {
      var front := pools[..|pools| - 1];
      SumChangeBounds(front, lo, hi);
      var n := |front| as real;
      var low, high := lo * n, hi * n;
      assert low <= SumChange(front) <= high;
      assert lo * (|pools| as real) == low + lo;
      assert hi * (|pools| as real) == high + hi;
    }
  }

  /** The mean change lies between the smallest and the largest change. */
  lemma NavChangeWithin(pools: seq<Pool>, lo: real, hi: real)
    requires pools != []
    requires forall p | p in pools :: lo <= p.change24h <= hi
    ensures lo <= PoolStats(pools).navChange <= hi
  {
    forall i | 0 <= i < |pools| ensures lo <= pools[i].change24h <= hi {
      assert pools[i] in pools;
    }
    SumChangeBounds(pools, lo, hi);
    MeanWithin(SumChange(pools), |pools| as real, lo, hi);
  }

  lemma MeanWithin(sum: real, n: real, lo: real, hi: real)
    requires n > 0.0 && lo * n <= sum <= hi * n
    ensures lo <= sum / n <= hi
  {
    var mean := sum / n;
    assert (mean - lo) * n == sum - lo * n >= 0.0;
    assert (hi - mean) * n == hi * n - sum >= 0.0;
  }

  datatype Staleness = Healthy | NeedsReview | StaleData

  /** The text `getStatus` returns for each level. */
  function Label(s: Staleness): string {
    match s
    case Healthy => "Healthy"
    case NeedsReview => "Needs Review"
    case StaleData => "Stale Data"
  }

  /** How stale a level is, from 0 (fresh) to 2. */
  function Severity(s: Staleness): nat {
    match s
    case Healthy => 0
    case NeedsReview => 1
    case StaleData => 2
  }

  /** `getStatus`: under an hour is healthy, under three hours needs review,
      anything older is stale. */
  function GetStatus(minutesAgo: int): (r: Staleness)
    ensures r == Healthy <==> minutesAgo < 60
    ensures r == NeedsReview <==> 60 <= minutesAgo < 180
    ensures r == StaleData <==> 180 <= minutesAgo
  {
    if minutesAgo < 60 then Healthy
    else if minutesAgo < 180 then NeedsReview
    else StaleData
  }

  /** Older data never gets a fresher status. */
  lemma StatusMonotone(m1: int, m2: int)
    requires m1 <= m2
    ensures Severity(GetStatus(m1)) <= Severity(GetStatus(m2))
  {
  }

  /** The three labels are distinct, so the text identifies the level. */
  lemma LabelsDistinct(s: Staleness, t: Staleness)
    ensures Label(s) == Label(t) <==> s == t
  {
    assert Label(Healthy)[0] != Label(NeedsReview)[0];
    assert Label(Healthy)[0] != Label(StaleData)[0];
    assert Label(NeedsReview)[0] != Label(StaleData)[0];
  }

  /** `formatTimeAgo`. Minutes are whole numbers; the divisions are
      `Math.floor` of a non-negative quotient. */
  function FormatTimeAgo(minutes: int): (r: string)
    ensures r == "Just now" <==> minutes < 1
    ensures minutes >= 1 ==> |r| > 4 && r[|r| - 4..] == " ago"
  {
    if minutes < 1 then "Just now"
    else if minutes < 60 then DecimalString(minutes) + " min ago"
    else if minutes < 120 then "1 hr ago"
    else if minutes < 1440 then DecimalString(minutes / 60) + " hrs ago"
    else DecimalString(minutes / 1440) + " days ago"
  }

  /** What a "time ago" label says. */
  datatype Elapsed = JustNow | Minutes(count: nat) | Hours(count: nat) | Days(count: nat)

  /** How a reader takes a label apart: a count written as `${n}` writes it,
      a space, and a unit; "hr" goes with a single hour and "hrs" with more. */
  function ReadTimeAgo(s: string): Option<Elapsed> {
    if s == "Just now" then Some(JustNow)
    else
      var k := IndexOf(s, ' ');
      var digits := s[..k];
      var unit := s[k..];
      if !Canonical(digits) then None
      else
        var n := DigitsValue(digits);
        if unit == " min ago" then Some(Minutes(n))
        else if unit == " hr ago" && n == 1 then Some(Hours(1))
        else if unit == " hrs ago" && n >= 2 then Some(Hours(n))
        else if unit == " days ago" then Some(Days(n))
        else None
  }

  /** A count followed by a known unit reads back as that count in that unit. */
  lemma ReadLabel(n: nat, unit: string)
    requires unit == " min ago" || unit == " hr ago" || unit == " hrs ago" || unit == " days ago"
    requires unit == " hr ago" ==> n == 1
    requires unit == " hrs ago" ==> n >= 2
    ensures ReadTimeAgo(DecimalString(n) + unit) == Some(
      if unit == " min ago" then Minutes(n) else if unit == " days ago" then Days(n) else Hours(n))
  {
    var d := DecimalString(n);
    var s := d + unit;
    assert s[0] == d[0];
    assert s != "Just now";
    assert s[|d|] == ' ';
    assert forall i | 0 <= i < |d| :: s[i] == d[i];
    assert ' ' !in s[..|d|];
    assert IndexOf(s, ' ') == |d|;
    assert s[..|d|] == d;
    assert s[|d|..] == unit;
    DecimalRoundTrip(n);
  }

  /** Every label reads back as the elapsed time it stands for: the minutes
      below an hour, whole hours below a day (a single hour spelled "1 hr"),
      whole days beyond. */
  lemma TimeAgoReadsBack(minutes: int)
    ensures ReadTimeAgo(FormatTimeAgo(minutes)) == Some(
      if minutes < 1 then JustNow
      else if minutes < 60 then Minutes(minutes)
      else if minutes < 1440 then Hours(minutes / 60)
      else Days(minutes / 1440))
    ensures 60 <= minutes < 120 ==> FormatTimeAgo(minutes) == "1 hr ago"
    ensures 120 <= minutes < 1440 ==> 2 <= minutes / 60 <= 23
    ensures 1440 <= minutes ==> minutes / 1440 >= 1
  {
    if minutes < 1 {
    } else if minutes < 60 {
      ReadLabel(minutes, " min ago");
    } else if minutes < 120 {
      assert FormatTimeAgo(minutes) == DecimalString(1) + " hr ago";
      ReadLabel(1, " hr ago");
    } else if minutes < 1440 {
      ReadLabel(minutes / 60, " hrs ago");
    } else {
      ReadLabel(minutes / 1440, " days ago");
    }
  }

  /** The one way of writing each elapsed time. */
  function Spelling(e: Elapsed): string {
    match e
    case JustNow => "Just now"
    case Minutes(n) => DecimalString(n) + " min ago"
    case Hours(n) => DecimalString(n) + (if n == 1 then " hr ago" else " hrs ago")
    case Days(n) => DecimalString(n) + " days ago"
  }

  /** The reader accepts only the one spelling of what it reads: any text it
      reads as `e` is `Spelling(e)`, letter for letter. */
  lemma ReadSpelled(s: string)
    requires ReadTimeAgo(s).Some?
    ensures s == Spelling(ReadTimeAgo(s).value)
  {
    if s != "Just now" {
      var k := IndexOf(s, ' ');
      var digits := s[..k];
      CanonicalDigits(digits);
      assert s == digits + s[k..];
    }
  }

  /** A "time ago" label is the only text that reads as the elapsed time it
      stands for: with `TimeAgoReadsBack`, this fixes every label exactly. */
  lemma TimeAgoUnique(minutes: int, s: string)
    requires ReadTimeAgo(s) == ReadTimeAgo(FormatTimeAgo(minutes))
    ensures s == FormatTimeAgo(minutes)
  {
    TimeAgoReadsBack(minutes);
    ReadSpelled(s);
    ReadSpelled(FormatTimeAgo(minutes));
  }
}

=== FILE: text.dfy ===
/** The string operations the program uses: ASCII `toLowerCase`/`toUpperCase`,
    `includes`, and the decimal rendering of a non-negative integer inside a
    template literal. */
module Text {

  function LowerChar(c: char): char {
    if 'A' <= c <= 'Z' then (c as int + 32) as char else c
  }

  function UpperChar(c: char): char {
    if 'a' <= c <= 'z' then (c as int - 32) as char else c
  }

  /** `s.toLowerCase()` on ASCII letters. */
  function Lower(s: string): (r: string)
    ensures |r| == |s|
    ensures forall i | 0 <= i < |r| :: !('A' <= r[i] <= 'Z')
    ensures forall i | 0 <= i < |s| :: !('A' <= s[i] <= 'Z') ==> r[i] == s[i]
    ensures forall i | 0 <= i < |s| :: 'A' <= s[i] <= 'Z' ==> r[i] == (s[i] as int + 32) as char
  {
    seq(|s|, i requires 0 <= i < |s| => LowerChar(s[i]))
  }

  /** `s.toUpperCase()` on ASCII letters. */
  function Upper(s: string): (r: string)
    ensures |r| == |s|
    ensures forall i | 0 <= i < |r| :: !('a' <= r[i] <= 'z')
    ensures forall i | 0 <= i < |s| :: !('a' <= s[i] <= 'z') ==> r[i] == s[i]
    ensures forall i | 0 <= i < |s| :: 'a' <= s[i] <= 'z' ==> r[i] == (s[i] as int - 32) as char
  {
    seq(|s|, i requires 0 <= i < |s| => UpperChar(s[i]))
  }

  /** Upper-casing loses nothing that a case-insensitive comparison sees, and
      upper-casing twice changes nothing more. */
  lemma LowerOfUpper(s: string)
    ensures Lower(Upper(s)) == Lower(s)
    ensures Upper(Upper(s)) == Upper(s)
  {
    forall i | 0 <= i < |s| ensures LowerChar(UpperChar(s[i])) == LowerChar(s[i]) {
    }
  }

  predicate StartsWith(s: string, prefix: string) {
    |prefix| <= |s| && s[..|prefix|] == prefix
  }

  /** `s.includes(q)`. */
  predicate Includes(s: string, q: string)
    ensures q == [] ==> Includes(s, q)
    ensures Includes(s, q) ==> |q| <= |s|
    decreases |s|
  {
    StartsWith(s, q) || (s != [] && Includes(s[1..], q))
  }

  /** `includes` holds when `q` occurs at some position of `s`. */
  lemma {:induction false} IncludesAt(s: string, q: string, i: nat)
    requires i <= |s| && StartsWith(s[i..], q)
    ensures Includes(s, q)
  {
    if i > 0 {
      assert s[1..][i - 1..] == s[i..];
      IncludesAt(s[1..], q, i - 1);
    }
  }

  /** `includes` holds exactly when `q` occurs at some position of `s`. */
  lemma {:induction false} IncludesWhere(s: string, q: string)
    ensures Includes(s, q) <==> exists i :: 0 <= i <= |s| && StartsWith(s[i..], q)
    decreases |s|
  {
    if Includes(s, q) {
      if StartsWith(s, q) {
        assert s[0..] == s;
      } else {
        IncludesWhere(s[1..], q);
        var i :| 0 <= i <= |s[1..]| && StartsWith(s[1..][i..], q);
        assert s[1..][i..] == s[i + 1..];
      }
    } else if exists i :: 0 <= i <= |s| && StartsWith(s[i..], q) {
      var i :| 0 <= i <= |s| && StartsWith(s[i..], q);
      IncludesAt(s, q, i);
      assert false;
    }
  }

  /** The first position of `c` in `s`, or `|s|` when there is none. */
  function IndexOf(s: string, c: char): (k: nat)
    ensures k <= |s| && c !in s[..k] && (k < |s| ==> s[k] == c)
  {
    if s == [] || s[0] == c then 0 else 1 + IndexOf(s[1..], c)
  }

  function DigitChar(d: nat): (c: char)
    requires d < 10
    ensures '0' <= c <= '9'
  {
    ('0' as int + d) as char
  }

  predicate AllDigits(s: string) {
    forall i | 0 <= i < |s| :: '0' <= s[i] <= '9'
  }

  /** A digit string as `${n}` writes one: non-empty, and no leading zero
      unless it is the single digit 0. */
  predicate Canonical(s: string) {
    s != [] && AllDigits(s) && (|s| == 1 || s[0] != '0')
  }

  /** The decimal text of `n`, as `${n}` renders a non-negative integer. */
  function DecimalString(n: nat): (r: string)
    ensures |r| >= 1 && AllDigits(r)
    ensures Canonical(r)
    decreases n
  {
    if n < 10 then [DigitChar(n)] else DecimalString(n / 10) + [DigitChar(n % 10)]
  }

  /** The value a string of decimal digits denotes. */
  function DigitsValue(s: string): nat
    requires AllDigits(s)
  {
    if s == [] then 0 else DigitsValue(s[..|s| - 1]) * 10 + (s[|s| - 1] as int - '0' as int)
  }

  /** Reading the rendered digits back gives the number that was rendered. */
  lemma {:induction false} DecimalRoundTrip(n: nat)
    ensures DigitsValue(DecimalString(n)) == n
    decreases n
  {
    if n >= 10 {
      var r := DecimalString(n);
      assert r[..|r| - 1] == DecimalString(n / 10);
      DecimalRoundTrip(n / 10);
    }
  }

  /** A string of digits with a leading digit other than 0 denotes at least 1. */
  lemma {:induction false} LeadingDigitPositive(s: string)
    requires s != [] && AllDigits(s) && s[0] != '0'
    ensures DigitsValue(s) >= 1
  {
    if |s| > 1 {
      var front := s[..|s| - 1];
      assert front[0] == s[0];
      LeadingDigitPositive(front);
    }
  }

  /** A canonical digit string is the rendering of the number it denotes, so
      no two canonical strings denote the same number. */
  lemma {:induction false} CanonicalDigits(s: string)
    requires Canonical(s)
    ensures DecimalString(DigitsValue(s)) == s
  {
    if |s| > 1 {
      var front := s[..|s| - 1];
      var last := s[|s| - 1] as int - '0' as int;
      assert front[0] == s[0];
      assert Canonical(front);
      LeadingDigitPositive(front);
      CanonicalDigits(front);
      var n := DigitsValue(s);
      assert n == DigitsValue(front) * 10 + last;
      assert n / 10 == DigitsValue(front) && n % 10 == last;
      assert DigitChar(last) == s[|s| - 1];
      assert s == front + [s[|s| - 1]];
    }
  }
}

=== FILE: token_store.dfy ===
/** The `tokens` table: one row per token address (the primary key), the bulk
    upsert that `bulkCreate(records, { updateOnDuplicate })` performs, and the
    database connection whose failures the caller sees as thrown errors. */
module TokenStore {
  import opened Wrappers

  /** One row of the table; timestamps are left out. */
  datatype Row = Row(
    address: string,
    symbol: Option<string>,
    name: Option<string>,
    decimals: int,
    priceUsd: real,
    circulatingMarketCap: real,
    totalSupply: Option<string>,
    holders: int,
    iconUrl: Option<string>,
    tokenType: string,
    network: string)

  /** The seven columns listed in `updateOnDuplicate` hold the values of `record`. */
  predicate HasUpdatedColumns(row: Row, record: Row) {
    && row.symbol == record.symbol
    && row.name == record.name
    && row.priceUsd == record.priceUsd
    && row.circulatingMarketCap == record.circulatingMarketCap
    && row.holders == record.holders
    && row.iconUrl == record.iconUrl
    && row.totalSupply == record.totalSupply
  }

  /** An existing row after a duplicate-key update with `record`. */
  function Merge(current: Row, record: Row): (r: Row)
    ensures HasUpdatedColumns(r, record)
    ensures r.address == current.address && r.decimals == current.decimals
    ensures r.tokenType == current.tokenType && r.network == current.network
  {
    current.(symbol := record.symbol, name := record.name, priceUsd := record.priceUsd,
             circulatingMarketCap := record.circulatingMarketCap, holders := record.holders,
             iconUrl := record.iconUrl, totalSupply := record.totalSupply)
  }

  /** Merging twice with the same record is merging once, and the later
      record's columns are all that a second merge leaves. */
  lemma MergeAbsorbs(current: Row, first: Row, second: Row)
    ensures Merge(Merge(current, first), second) == Merge(current, second)
    ensures Merge(first, first) == first
  {
  }

  /** The upsert of one record: a new address gets the record, an existing
      one is merged with it; other addresses keep their rows. */
  function UpsertOne(rows: map<string, Row>, record: Row): (r: map<string, Row>)
    ensures r.Keys == rows.Keys + {record.address}
    ensures forall a | a in rows && a != record.address :: r[a] == rows[a]
    ensures HasUpdatedColumns(r[record.address], record)
    ensures record.address !in rows ==> r[record.address] == record
    ensures record.address in rows ==> r[record.address] == Merge(rows[record.address], record)
  {
    rows[record.address := if record.address in rows then Merge(rows[record.address], record) else record]
  }

  predicate DistinctAddresses(records: seq<Row>) {
    forall i, j | 0 <= i < j < |records| :: records[i].address != records[j].address
  }

  function Addresses(records: seq<Row>): set<string> {
    set r | r in records :: r.address
  }

  lemma AddressesSplit(records: seq<Row>)
    requires records != []
    ensures Addresses(records) == {records[0].address} + Addresses(records[1..])
  {
    assert records == [records[0]] + records[1..];
  }

  /** The table after the bulk upsert of `records`: the old addresses plus
      those of the batch. */
  function UpsertAll(rows: map<string, Row>, records: seq<Row>): (r: map<string, Row>)
    ensures r.Keys == rows.Keys + Addresses(records)
    decreases |records|
  {
    if records == [] then rows
    else
      AddressesSplit(records);
      UpsertAll(UpsertOne(rows, records[0]), records[1..])
  }

  /** The first record of the batch with address `a`. */
  function FirstFor(records: seq<Row>, a: string): (r: Row)
    requires a in Addresses(records)
    ensures r in records && r.address == a
  {
    AddressesSplit(records);
    if records[0].address == a then records[0] else FirstFor(records[1..], a)
  }

  /** The last record of the batch with address `a`. */
  function LastFor(records: seq<Row>, a: string): (r: Row)
    requires a in Addresses(records)
    ensures r in records && r.address == a
  {
    AddressesSplit(records);
    if a in Addresses(records[1..]) then LastFor(records[1..], a) else records[0]
  }

  /** Every row is stored under its own address. */
  ghost predicate Keyed(rows: map<string, Row>) {
    forall a | a in rows :: rows[a].address == a
  }

  lemma HeadNotInTail(records: seq<Row>)
    requires records != [] && DistinctAddresses(records)
    ensures records[0].address !in Addresses(records[1..])
  {
    var tail := records[1..];
    forall r | r in tail ensures r.address != records[0].address {
      var j :| 0 <= j < |tail| && tail[j] == r;
      assert records[j + 1] == r;
    }
  }

  /** The bulk upsert adds the batch's addresses to the table and leaves every
      row whose address is not in the batch as it was. */
  lemma {:induction false} UpsertAllFrame(rows: map<string, Row>, records: seq<Row>)
    ensures UpsertAll(rows, records).Keys == rows.Keys + Addresses(records)
    ensures forall a | a in rows && a !in Addresses(records) :: UpsertAll(rows, records)[a] == rows[a]
    decreases |records|
  {
    if records != [] {
      var tail := records[1..];
      UpsertAllFrame(UpsertOne(rows, records[0]), tail);
      AddressesSplit(records);
    }
  }

  /** Whatever the batch, an address of the batch ends with its old row, or
      else its first record, merged with its last record. */
  lemma {:induction false} UpsertAllLast(rows: map<string, Row>, records: seq<Row>)
    ensures forall a | a in Addresses(records) ::
      UpsertAll(rows, records)[a]
        == Merge(if a in rows then rows[a] else FirstFor(records, a), LastFor(records, a))
    decreases |records|
  {
    if records != [] {
      var head := records[0];
      var tail := records[1..];
      var rows1 := UpsertOne(rows, head);
      UpsertAllLast(rows1, tail);
      UpsertAllFrame(rows1, tail);
      AddressesSplit(records);
      forall a | a in Addresses(records)
        ensures UpsertAll(rows, records)[a]
          == Merge(if a in rows then rows[a] else FirstFor(records, a), LastFor(records, a))
      {
        if a == head.address {
          MergeAbsorbs(if a in rows then rows[a] else head, head, LastFor(records, a));
        }
      }
    }
  }

  /** What the bulk upsert writes for each record of a batch without repeated
      addresses: an address that was absent gets the record as it is; an
      address that was present gets the seven update columns from the record
      and keeps its `decimals`, `type` and `network`. */
  lemma {:induction false} UpsertAllEffect(rows: map<string, Row>, records: seq<Row>)
    requires DistinctAddresses(records)
    ensures forall i | 0 <= i < |records| ::
      && records[i].address in UpsertAll(rows, records)
      && UpsertAll(rows, records)[records[i].address]
        == if records[i].address in rows then Merge(rows[records[i].address], records[i]) else records[i]
    decreases |records|
  {
    UpsertAllFrame(rows, records);
    if records != [] {
      var head := records[0];
      var tail := records[1..];
      var rows1 := UpsertOne(rows, head);
      assert UpsertAll(rows, records) == UpsertAll(rows1, tail);
      UpsertAllEffect(rows1, tail);
      UpsertAllFrame(rows1, tail);
      HeadNotInTail(records);
      forall i | 0 <= i < |records|
        ensures records[i].address in UpsertAll(rows, records)
        ensures UpsertAll(rows, records)[records[i].address]
          == if records[i].address in rows then Merge(rows[records[i].address], records[i]) else records[i]
      {
        if i > 0 {
          assert records[i] == tail[i - 1];
          assert records[i].address != head.address;
        }
      }
    }
  }

  /** The upsert keeps every row under its own address. */
  lemma UpsertAllKeyed(rows: map<string, Row>, records: seq<Row>)
    requires Keyed(rows)
    ensures Keyed(UpsertAll(rows, records))
    decreases |records|
  {
    if records != [] {
      UpsertAllKeyed(UpsertOne(rows, records[0]), records[1..]);
    }
  }

  /** Saving the same batch twice leaves the table as saving it once. */
  lemma UpsertAllIdempotent(rows: map<string, Row>, records: seq<Row>)
    ensures UpsertAll(UpsertAll(rows, records), records) == UpsertAll(rows, records)
  {
    var once := UpsertAll(rows, records);
    var twice := UpsertAll(once, records);
    UpsertAllFrame(once, records);
    UpsertAllLast(rows, records);
    UpsertAllLast(once, records);
    forall a | a in twice ensures twice[a] == once[a] {
      if a in Addresses(records) {
        MergeAbsorbs(if a in rows then rows[a] else FirstFor(records, a), LastFor(records, a), LastFor(records, a));
      }
    }
  }

  /** The two databases the server is built against: the TypeScript sources
      open an in-memory SQLite database, the compiled build PostgreSQL. Both
      hold the compiled build's table, keyed by address. */
  datatype Dialect = Sqlite | Postgres

  /** PostgreSQL refuses an `INSERT ... ON CONFLICT DO UPDATE` whose rows hit the
      same key twice; SQLite applies the rows one after the other. */
  const RepeatedKey := "ON CONFLICT DO UPDATE command cannot affect row a second time"

  /** Whether the database accepts the batch `records` in one upsert. */
  predicate AcceptsBatch(dialect: Dialect, records: seq<Row>) {
    dialect == Sqlite || DistinctAddresses(records)
  }

  /** The round trips `bulkCreate(records)` makes: an empty batch is answered
      without a statement. */
  function Trips(records: seq<Row>): nat {
    if |records| == 0 then 0 else 1
  }

  /** Whether `bulkCreate(records)` upserts the batch when its statement would
      meet `fault`: always for an empty batch, otherwise when the round trip
      succeeds and the database accepts the batch. */
  predicate Applied(dialect: Dialect, fault: Option<string>, records: seq<Row>) {
    |records| == 0 || (fault.None? && AcceptsBatch(dialect, records))
  }

  /** The database: the table's rows, and which round trips fail. `outage`
      maps the number of each failing round trip to the error it throws;
      `calls` counts the round trips made so far. */
  class TokenTable {
    var rows: map<string, Row>
    const dialect: Dialect
    const outage: map<nat, string>
    var calls: nat

    /** The error (if any) that the `n`-th round trip throws. */
    function Fault(n: nat): (r: Option<string>)
      ensures r.Some? <==> n in outage
    {
      if n in outage then Some(outage[n]) else None
    }

    ghost predicate Valid()
      reads this
    {
      Keyed(rows)
    }

    constructor (dialect: Dialect, outage: map<nat, string>)
      ensures Valid() && rows == map[] && calls == 0
      ensures this.dialect == dialect && this.outage == outage
    {
      rows := map[];
      this.dialect := dialect;
      this.outage := outage;
      calls := 0;
    }

    /** One round trip to the database; it fails as the outage schedule says. */
    method RoundTrip() returns (fault: Option<string>)
      modifies this`calls
      ensures calls == old(calls) + 1
      ensures fault == Fault(old(calls))
    {
      fault := Fault(calls);
      calls := calls + 1;
    }

    /** `Token.bulkCreate(records, { updateOnDuplicate })`: an empty batch
        returns at once; otherwise one statement, which either fails and leaves
        the table unchanged or upserts the whole batch. */
    method BulkCreate(records: seq<Row>) returns (outcome: Result<(), string>)
      requires Valid()
      modifies this
      ensures Valid()
      ensures calls == old(calls) + Trips(records)
      ensures records == [] ==> outcome == Success(()) && rows == old(rows)
      ensures Applied(dialect, Fault(old(calls)), records) ==>
        outcome == Success(()) && rows == UpsertAll(old(rows), records)
      ensures !Applied(dialect, Fault(old(calls)), records) && Fault(old(calls)).Some? ==>
        outcome == Failure(Fault(old(calls)).value) && rows == old(rows)
      ensures !Applied(dialect, Fault(old(calls)), records) && Fault(old(calls)).None? ==>
        outcome == Failure(RepeatedKey) && rows == old(rows)
    {
      if records == [] {
        return Success(());
      }
      var fault := RoundTrip();
      if fault.Some? {
        return Failure(fault.value);
      }
      if !AcceptsBatch(dialect, records) {
        return Failure(RepeatedKey);
      }
      UpsertAllKeyed(rows, records);
      rows := UpsertAll(rows, records);
      return Success(());
    }
  }
}

=== FILE: wrappers.dfy ===
/** Option and Result values: `null`/`undefined` fields and thrown errors of the
    original program are modelled with these two datatypes. */
module Wrappers {

  datatype Option<+T> = None | Some(value: T) {
    function GetOr(default: T): T {
      match this
      case Some(v) => v
      case None => default
    }
  }

  datatype Result<+R, +E> = Success(value: R) | Failure(error: E)
}
